=== FILE: README.md ===
# SCRBenchmark core, modelled in Dafny

SCRBenchmark is a benchmark for shape-constrained symbolic regression. It pairs
equations from the Feynman collection with declared shape constraints. A
constraint says, for example, that the output is monotonically increasing in `x0`,
or that its second derivative in `(x0, x1)` is negative.

The benchmark does two jobs:

- It generates training data from an equation. It draws random inputs, evaluates
  the equation, keeps only the rows whose output is a usable float, and retries
  until it has enough rows.
- It checks a candidate expression against the declared constraints. It samples
  each constraint's input domain and evaluates the candidate's partial derivatives
  there, through SymPy or JAX. It classifies the signs it sees and reports the
  constraints whose observed behaviour differs from the declared one.

This project models the decision logic of both jobs. The numeric, symbolic and
random work is replaced by oracles passed in as parameters.

Modules:

- `Outcomes` (`outcomes.dfy`): the `Result` and `Option` wrappers, plus one `Error`
  value per exception the source raises.
- `Sampling` (`sampling.dfy`):
  - `create_dataset_from_sampling_objectives`, as the method
    `CreateDatasetFromSamplingObjectives`, which keeps columns as the source does;
  - the specification `Generate`, which works over rows;
  - the lemmas that connect the two.

  A sampling objective is an oracle `sample(round, count, k)`: the `k`-th value
  of the batch of `count` values drawn in retry round `round`, where round 0 is
  the first draw.
- `Descriptors` (`descriptors.dfy`): the sign-pattern classifier
  `get_constraint_descriptor_for_gradients`.
- `Equations` (`equation.dfy`): the class `KnownEquation`, meaning its
  constructor, `get_var_count`, the min/max fold of `get_domain_range`,
  `get_sympy_eq_local_dict` and `create_dataset`, along with the symbol names
  `x0, x1, ...`.
- `Constraints` (`constraints.dfy`):
  - constraint records;
  - the SymPy derivative keys (n first-order keys, then n² ordered pairs) and
    name matching;
  - per-constraint classification for each backend;
  - the violation list and the verdict, specified as functions.
- `Benchmarks` (`benchmark.dfy`): the class `Benchmark`, meaning the per-constraint
  sample cache, the two checking loops, backend dispatch, and the noise guard of
  `create_dataset`.

Oracles:

- `eqFunc` evaluates the equation at one point.
- `checkIfValid` decides whether one output is usable.
- `deriv(key, point)` is the value at `point` of the SymPy derivative whose name
  tag is `key`.
- `grad(point, i)` and `hess(point, i, j)` are JAX's gradient and Hessian entries.
- `uniform(k, row, col)` is the unit draw in `[0, 1)` for the sample of the `k`-th
  checked constraint.
- `noise(k)` is the noise added to row `k`.

## Model

| member | source | states |
|---|---|---|
| Sampling.CreateDatasetFromSamplingObjectives | SCRBenchmark/base.py:34-61 | The rejection-sampling generator over columns returns exactly the specification `Generate`. On success it has exactly `sample_size` rows, each made of a point's inputs followed by the equation's output at that same point, which passes `check_if_valid`. |
| Sampling.RetryRounds | SCRBenchmark/base.py:47-61 | The retry loop yields what the retry specification yields: the first `sample_size` rows of the first round whose accumulation suffices, or `SamplingExhausted` with the number of valid rows after `patience` rounds. |
| Sampling.RetryRound | SCRBenchmark/base.py:50-55 | One round keeps the column arrays aligned and turns the rows so far into the accumulation of one more round, with the new valid rows first. |
| Sampling.RetryRoundColumns | SCRBenchmark/base.py:50-54 | The row-level effect of one round's filtering and concatenation over columns: one flag vector filters every column and `y`, and the new rows are put in front. |
| Sampling.RowsOfFilteredColumns | SCRBenchmark/base.py:45-46 | Masking every column and the outputs with the same flags equals masking the rows, so inputs stay next to their own output. |
| Sampling.RowsOfConcatenatedColumns | SCRBenchmark/base.py:53-54 | Concatenating columns and outputs position by position equals concatenating the rows. |
| Sampling.RowsOfTruncatedColumns | SCRBenchmark/base.py:57-59 | Cutting every column and `y` to `sample_size` keeps the first `sample_size` rows. |
| Sampling.FilterAt | SCRBenchmark/base.py:40-46 | A mask keeps `sum(flags)` elements, namely the flagged positions in order. |
| Sampling.FilterAllTrue | SCRBenchmark/base.py:41-43 | An all-true mask keeps everything. |
| Sampling.CountTrue | SCRBenchmark/base.py:41 | `sum(valid_sample_flags)` is at most the batch size, and equals it exactly when every flag is set. |
| Sampling.Draw | SCRBenchmark/base.py:37-50 | A draw holds one column per sampling objective, each holding the requested number of values. |
| Sampling.Generate | SCRBenchmark/base.py:34-61 | What `create_dataset_from_sampling_objectives` returns or raises. It has no contract of its own; GenerateSound, GenerateFailsIffNoRoundSuffices and GenerateTruncatesFirstSufficientRound state its meaning. |
| Sampling.GenerateSound | SCRBenchmark/base.py:37-59 | Every successful generation has exactly `sample_size` rows, and each row is sound: inputs, then `eq_func` at those inputs, which is valid. |
| Sampling.ValidDrawRowsSound | SCRBenchmark/base.py:38-46 | The rows a round keeps are all sound. |
| Sampling.AccumulatedSound | SCRBenchmark/base.py:53-54 | All accumulated rows, across rounds, are sound. |
| Sampling.FullyValidFirstDrawReturned | SCRBenchmark/base.py:42-43 | If the first draw is fully valid, it is returned unchanged and in draw order, whatever `patience` is. |
| Sampling.NewerRoundsFirst | SCRBenchmark/base.py:53-54 | The accumulation after round `j` is the tail of every later accumulation. The rows of retry round `i` head the accumulation after round `i`. |
| Sampling.AccumulationOrder | SCRBenchmark/base.py:53-54 | The same ordering fact, for any sequence of rounds. |
| Sampling.AccumulatedFrom | SCRBenchmark/base.py:53-54 | Every accumulated row came from some round up to the current one. |
| Sampling.GenerateFailsIffNoRoundSuffices | SCRBenchmark/base.py:36-61 | No objectives gives `NoSamplingObjectives`. Otherwise generation fails exactly when the first draw is short and no accumulation within `patience` rounds reaches `sample_size`; the error then carries the final number of valid rows. With `patience = 0`, it fails exactly when the first draw is not fully valid. |
| Sampling.GenerateTruncatesFirstSufficientRound | SCRBenchmark/base.py:48-59 | After a short first draw, the result is the first `sample_size` rows of the accumulation at the first round that reaches `sample_size`. No earlier round reached it, and that round is at most `patience`. |
| Sampling.FirstSufficientRound | SCRBenchmark/base.py:48-56 | The first round that suffices is no earlier than the round the search starts from. |
| Sampling.RetryAtFirstSufficientRound | SCRBenchmark/base.py:48-61 | The first sufficient round lies in `[i, patience + 1]`, and every round before it falls short. When it is within `patience`, retrying returns its truncated accumulation. |
| Sampling.RetryReaches | SCRBenchmark/base.py:55-59 | One more round either finishes with the truncated accumulation, or stays before the first sufficient round. |
| Sampling.RetryExhausted | SCRBenchmark/base.py:60-61 | When no round within `patience` suffices, retrying fails with the valid-row count after `patience` rounds. |
| Sampling.RetryFails | SCRBenchmark/base.py:48-61 | Retrying from round `i` fails exactly when every accumulation from `i` to `patience` falls short, and the error carries the final count. |
| Sampling.SameAccumulate | SCRBenchmark/base.py:53-54 | The accumulation after round `i` depends only on rounds `0..i`. |
| Sampling.SameRetry | SCRBenchmark/base.py:48-61 | Retrying depends only on rounds `0..patience`. |
| Sampling.SameDraw | SCRBenchmark/base.py:37-52 | A draw, its table, its flags and its kept rows depend only on the values actually requested. |
| Sampling.GenerateReadsOnlyScheduledDraws | SCRBenchmark/base.py:37-50 | Generation reads only the first draw of `sample_size` values and then, in rounds `1..patience`, draws of `5 * missed_sample_size` values. The shortfall is the one after the first draw and is never recomputed. Any two samplers that agree on those draws generate the same result. |
| Descriptors.ClassifySignsTotal | SCRBenchmark/base.py:74-84 | The case split succeeds exactly on the non-empty sets of signs drawn from {-1, 0, 1}, and never answers `Unknown`. |
| Descriptors.SignSetMembers | SCRBenchmark/base.py:74 | Each sign is present in `set(np.unique(np.sign(values)))` exactly when a value of that sign exists. The set is empty exactly when the input is. |
| Descriptors.DescriptorForGradients | SCRBenchmark/base.py:73-85 | `get_constraint_descriptor_for_gradients`: for NaN-free values, it fails exactly on an empty list and never answers the placeholder `Unknown`. What each descriptor means is stated by DescriptorMeaning. |
| Descriptors.DescriptorMeaning | SCRBenchmark/base.py:73-85 | Per descriptor, an if-and-only-if in terms of the values. Positive: none negative and some positive. Negative: the mirror image. Zero: non-empty and all zero. No constraint: both signs occur. For NaN-free derivative values, an empty input is the only error. |
| Descriptors.NonEmptyClassified | SCRBenchmark/base.py:73-85 | For NaN-free derivative values, every non-empty list gets one of the four descriptors. |
| Equations.NatToString | SCRBenchmark/base.py:98 | Digits only, at least one, one exactly for indices below 10, and a leading zero only for 0; that they are the decimal representation is stated by NatToStringValue. |
| Equations.NatToStringValue | SCRBenchmark/base.py:98 | Reading the rendered digits back as a decimal number gives the index: `f'x{i}'` uses the decimal representation of `i`. |
| Equations.NatToStringInjective | SCRBenchmark/base.py:98 | Different indices have different decimal renderings. |
| Equations.VarName | SCRBenchmark/base.py:98 | `f'x{i}'` starts with `x` followed by at least one digit. |
| Equations.VarNamesDistinct | SCRBenchmark/base.py:98 | `x{i}` and `x{j}` are equal exactly when `i == j`. |
| Equations.Names | SCRBenchmark/base.py:244 | The symbols' names, position by position. |
| Equations.LocalDict | SCRBenchmark/base.py:243-244 | `{v.name: v for v in self.x}`: every entry is keyed by its own symbol's name. Its keys and the later-wins rule are stated by LocalDictEntries. |
| Equations.LocalDictEntries | SCRBenchmark/base.py:243-244 | The headline lemma, combining LocalDictKeys and LocalDictLatest: the dictionary comprehension's keys are exactly the symbols' names. Each name maps to its symbol unless a later symbol has the same name. |
| Equations.LocalDictKeys | SCRBenchmark/base.py:243-244 | The dictionary's keys are exactly the symbols' names. |
| Equations.LocalDictLatest | SCRBenchmark/base.py:243-244 | Every symbol's name is a key, mapped to that symbol unless a later symbol carries the same name. |
| Equations.LocalDictOfDistinctNames | SCRBenchmark/base.py:243-244 | With distinct names, the dictionary has one entry per symbol, mapping each name to its symbol. |
| Equations.DistinctCardinality | SCRBenchmark/base.py:243-244 | Distinct names form a set of the same size. |
| Equations.Dedup | SCRBenchmark/benchmark.py:90 | The display-name dictionary's keys are pairwise distinct, and they are exactly the display names. |
| Equations.RangeFoldAsWritten | SCRBenchmark/base.py:126-138 | The loop of `get_domain_range` as written, with its `elif`: it fails exactly on an empty objective list. Its bounds are stated by RangeFoldAsWrittenBounds, and the maximum it misses by RangeFoldAsWrittenMissesMaximum. |
| Equations.RangeFoldAsWrittenBounds | SCRBenchmark/base.py:126-138 | The fold as written fails only on no objectives. Its minimum is the smallest minimum. Its maximum is some objective's maximum, no larger than the largest. |
| Equations.MaxOfMaximaBound | SCRBenchmark/base.py:126-138 | The largest maximum bounds all maxima and is attained. |
| Equations.RangeFold | SCRBenchmark/base.py:126-138 | The fold with independent minimum and maximum updates: it fails exactly on an empty objective list. RangeFoldIsMinMax states that it gives the smallest minimum and the largest maximum. |
| Equations.RangeFoldIsMinMax | SCRBenchmark/base.py:126-138 | The corrected fold returns exactly the smallest minimum and the largest maximum. |
| Equations.RangeFoldAsWrittenMissesMaximum | SCRBenchmark/base.py:135-138 | With objectives (1, 2) then (0, 100), the fold as written returns (0, 2); the corrected fold returns (0, 100). |
| Equations.KnownEquation.constructor | SCRBenchmark/base.py:90-99 | The constructor establishes one symbol `x{i}` per sampling objective. Each symbol carries its keyword arguments, which default to `{'real': True}`. |
| Equations.KnownEquation.GetVarCount | SCRBenchmark/base.py:111-112 | The variable count is the number of sampling objectives. |
| Equations.KnownEquation.VarNames | SCRBenchmark/base.py:98 | The symbol names are `x0 .. x{n-1}`, pairwise distinct. |
| Equations.KnownEquation.VarNamesApart | SCRBenchmark/base.py:98 | No two symbols share a name. |
| Equations.KnownEquation.GetSympyEqLocalDict | SCRBenchmark/base.py:243-244 | The dictionary has `n` entries, with keys `x0 .. x{n-1}`, and each key maps to its own symbol. |
| Equations.KnownEquation.GetDomainRange | SCRBenchmark/base.py:126-138 | The loop computes the `elif` fold as written. |
| Equations.KnownEquation.CreateDataset | SCRBenchmark/base.py:156-157 | Delegates to the generator. On success there are `sample_size` rows of width `n + 1`, all sound. |
| Constraints.CheckableConstraints | SCRBenchmark/benchmark.py:27-141 | Filtering drops exactly the "no constraint" entries. |
| Constraints.CheckablePositionsExact | SCRBenchmark/benchmark.py:80 | The positions kept by the filter are in range, strictly increasing, and are exactly those of the constraints other than "no constraint". |
| Constraints.CheckablePicks | SCRBenchmark/benchmark.py:80 | The filtered list has one entry per kept position, and its `k`-th entry is the constraint at the `k`-th kept position. |
| Constraints.CheckableInOrder | SCRBenchmark/benchmark.py:80 | The filter is the subsequence of the checkable constraints, in their catalog order: kept positions strictly increase, entry `k` is the constraint at position `k`, and a position is kept exactly when its constraint is checkable. |
| Constraints.DerivativeKeysLayout | SCRBenchmark/benchmark.py:97-110 | There are `n + n²` keys. Key `i` is the first-order key of name `i`. Key `n + i*n + j` is the ordered pair `(name i, name j)`. |
| Constraints.FlattenAt | SCRBenchmark/benchmark.py:109 | Flattening rows of width `w` puts element `(i, j)` at `i*w + j`. |
| Constraints.FlattenLength | SCRBenchmark/benchmark.py:109 | Flattening `r` rows of width `w` gives `r*w` items. |
| Constraints.Matches | SCRBenchmark/benchmark.py:120-123 | Every match is a key whose name tag equals the constraint's name tag. |
| Constraints.MatchesOne | SCRBenchmark/benchmark.py:120-129 | A tag carried by exactly one key matches that key alone. |
| Constraints.MatchesNone | SCRBenchmark/benchmark.py:127-128 | A tag no key carries matches nothing. |
| Constraints.MatchesAppend | SCRBenchmark/benchmark.py:110-123 | Matching distributes over concatenation of the key list. |
| Constraints.FlattenMatchesNone | SCRBenchmark/benchmark.py:109 | No row matching means the flattened list does not match. |
| Constraints.FlattenMatchesOne | SCRBenchmark/benchmark.py:109 | One matching key in one row means exactly that key matches after flattening. |
| Constraints.PairRowMatches | SCRBenchmark/benchmark.py:102-106 | Row `i` of the pair keys matches a pair tag exactly when its first name is name `i`. |
| Constraints.PairRowsMatches | SCRBenchmark/benchmark.py:102-106 | The same, for every row. |
| Constraints.FirstKeysMatch | SCRBenchmark/benchmark.py:97-99 | Among the first-order keys, only a resolving single name matches, and it matches once. |
| Constraints.PairKeysMatch | SCRBenchmark/benchmark.py:102-109 | Among the pair keys, only a resolving pair of names matches, and it matches once. |
| Constraints.UniqueMatch | SCRBenchmark/benchmark.py:110-129 | With distinct names, a tag matches exactly once when it names a variable or an ordered pair of variables, and never otherwise. |
| Constraints.IndexOf | SCRBenchmark/benchmark.py:167-174 | `list.index` fails exactly when the name is absent. Otherwise it returns the first position holding the name. |
| Constraints.Classify | SCRBenchmark/benchmark.py:117-180 | One loop body of either check: an empty sample always fails, and the answer is never the placeholder `Unknown`. The errors are characterised by SymPyClassifyFails and JaxClassifyFails. |
| Constraints.Classifications | SCRBenchmark/benchmark.py:115-180 | One classification per checked constraint. |
| Constraints.Collect | SCRBenchmark/benchmark.py:115-135 | The loop that appends each mismatching constraint: on success it reports at most one entry per constraint. CollectFails and CollectPicks state which error it raises and which constraints it reports. |
| Constraints.CollectFails | SCRBenchmark/benchmark.py:113-186 | The loop fails exactly when some classification fails, and then with the first failure in catalog order. |
| Constraints.ViolatedPositionsExact | SCRBenchmark/benchmark.py:133-184 | The violated positions are increasing. They are exactly the positions whose classified descriptor differs from the declared one. |
| Constraints.CollectPicks | SCRBenchmark/benchmark.py:133-186 | Without failures, the collected list is the constraints at the violated positions, in order. |
| Constraints.Verdict | SCRBenchmark/benchmark.py:133-136 | `(len(violated_constraints) == 0, violated_constraints)`: the flag is true exactly when nothing is violated, with at most one entry per checked constraint. VerdictCharacterized states what the list holds. |
| Constraints.VerdictCharacterized | SCRBenchmark/benchmark.py:113-186 | The verdict fails exactly when some classification fails, and then with the first failure. Otherwise the flag is true exactly when the list is empty. The list holds exactly the constraints whose descriptor differs, in catalog order. |
| Constraints.ViolationsFromChecked | SCRBenchmark/benchmark.py:133-136 | Every reported violation is one of the constraints that were checked. |
| Constraints.SymPyClassifyFails | SCRBenchmark/benchmark.py:119-132 | For NaN-free derivative values, on a non-empty sample with distinct dictionary keys, the SymPy path fails exactly when the tag names no variable and no pair of variables ("derivative not available"), or when it does but the sample's width differs from the number of keys the derivative is lambdified over (the argument-count error). |
| Constraints.BackendsAgree | SCRBenchmark/benchmark.py:97-180 | When SymPy's derivatives and JAX's gradient and Hessian agree, both backends classify every well-formed constraint alike on a sample with one column per name. |
| Constraints.VerdictsAgree | SCRBenchmark/benchmark.py:97-186 | Under the same agreement, the two backends return the same whole outcome (error, or validity flag and violated list) on a cache of such samples. |
| Constraints.JaxClassifyFails | SCRBenchmark/benchmark.py:160-180 | For NaN-free derivative values, on a non-empty sample, the JAX path fails only for a missing name, a bad index, or an order other than 1 and 2. Such an order always fails, and a well-formed constraint always succeeds. |
| Benchmarks.UniformTable | SCRBenchmark/benchmark.py:36 | A sample has `CONSTRAINT_SAMPLING_SIZE` rows of `get_var_count()` values. |
| Benchmarks.ScaleInRange | SCRBenchmark/benchmark.py:33-36 | A unit draw moved into `[low, high]` stays there, and stays below `high` when the range is not empty. |
| Benchmarks.UniformTableInRange | SCRBenchmark/benchmark.py:32-36 | Every sampled value of column `col` lies in that column's range, with the range broadcast when only one is given. |
| Benchmarks.CacheShape | SCRBenchmark/benchmark.py:26-36 | The cache's keys are exactly the checked constraints' IDs. Every value is a `(CONSTRAINT_SAMPLING_SIZE, n)` sample, and every checked constraint finds its sample. |
| Benchmarks.AddNoise | SCRBenchmark/benchmark.py:50-52 | Noise changes only the last column of each row, by that row's noise. |
| Benchmarks.AddNoiseKeepsInputs | SCRBenchmark/benchmark.py:48-52 | On rows `x0..x{n-1}, y`, adding noise keeps every input, and skipping noise keeps everything. |
| Benchmarks.CollectStep | SCRBenchmark/benchmark.py:115-184 | One loop step: a failing classification decides the whole check, and a successful one appends the constraint exactly when its descriptor differs. |
| Benchmarks.ReadyCacheCovers | SCRBenchmark/benchmark.py:26-36 | A ready cache has, for every checked constraint, a non-empty sample with one column per variable. |
| Benchmarks.SymPyArity | SCRBenchmark/base.py:64-70 | The derivative is lambdified over the dictionary's keys and called with the sample's columns. With as many keys as columns the check never fails on the argument count; with another number, a check whose first constraint resolves fails on it. |
| Benchmarks.CheckSymPy | SCRBenchmark/benchmark.py:113-136 | The SymPy loop, with its three inline errors (ambiguous name, missing derivative, argument count) plus the classifier's error on an empty sample, returns exactly the verdict specification. |
| Benchmarks.CheckJax | SCRBenchmark/benchmark.py:154-186 | The JAX loop, with its order dispatch and index lookups, returns exactly the verdict specification. |
| Benchmarks.Benchmark.constructor | SCRBenchmark/benchmark.py:16-24 | The cache is drawn at construction exactly when the flag is set. |
| Benchmarks.Benchmark.ReadDatasetsForConstraintChecking | SCRBenchmark/benchmark.py:26-36 | Fills the cache in a loop, one sample per checked constraint keyed by ID, and keeps the invariant. |
| Benchmarks.Benchmark.SymPyNames | SCRBenchmark/benchmark.py:88-90 | The parsing dictionary's keys, either the symbol names or the deduplicated display names, are pairwise distinct. |
| Benchmarks.Benchmark.CheckConstraintsSymPy | SCRBenchmark/benchmark.py:77-136 | With nothing to check, returns `(True, [])` and leaves the cache alone. Otherwise it draws the cache if absent and returns the verdict for the parsing dictionary's keys, which fails on the argument count when those keys are not one per column and the first checked constraint resolves (see DisplayNamesArity). |
| Benchmarks.Benchmark.CheckConstraintsJax | SCRBenchmark/benchmark.py:138-186 | The same for JAX, which always looks up the symbol names. |
| Benchmarks.Benchmark.CheckConstraints | SCRBenchmark/benchmark.py:69-75 | "SymPy" and "JAX" dispatch to their paths. Any other library fails with `UnsupportedLibrary`, leaving the cache untouched. |
| Benchmarks.Benchmark.CreateDataset | SCRBenchmark/benchmark.py:42-54 | A noise level outside `[0, 1]` is rejected. Otherwise the result fails exactly when generation fails. On success, the inputs are those generated, and the output moves by the noise only when the level is positive. |
| Benchmarks.NoConstraintNeverChecked | SCRBenchmark/benchmark.py:27-141 | "No constraint" entries get no sample, and every reported violation is a checked catalog constraint. |
| Benchmarks.ClassifyNeverUnforeseen | SCRBenchmark/base.py:83-84 | For NaN-free derivative values, on a non-empty sample, no backend raises "unforeseen sign values". |
| Benchmarks.SampledCheckNeverUnforeseen | SCRBenchmark/benchmark.py:36-177 | For NaN-free derivative values, on the drawn samples, a check never fails with "unforeseen sign values". |
| Benchmarks.Benchmark.PathsAgree | SCRBenchmark/benchmark.py:77-186 | With the symbol names and agreeing derivatives, `check_constraints_SymPy` and `check_constraints_JAX` reach the same outcome on the benchmark's cached samples. |
| Benchmarks.Benchmark.DisplayNamesArity | SCRBenchmark/benchmark.py:88-132 | With display names, the check never fails on the argument count when the deduplicated display names number one per variable; otherwise it fails on it as soon as the first checked constraint resolves. |

## Left out

- SymPy and JAX:
  - Parsing, differentiation, `lambdify`, `np.vectorize`, `jit` and `vmap` are foreign library calls.
  - The model takes the candidate's derivatives as the oracles `deriv`, `grad` and `hess`.
  - For SymPy, the oracle is indexed by the derivative's name tag. Matching on the tags, and everything after it, is modelled.
- Randomness:
  - `np.random.uniform`, `np.random.normal` and `np.random.seed` are oracles, and the `seed` argument is not modelled.
  - The size of the noise, `std(y) * sqrt(noise_level)`, is folded into the oracle `noise(k)`.
- Floating point:
  - values are unbounded reals;
  - `check_if_valid` is an abstract predicate (NaN, infinities and float64 limits are not modelled);
  - `np.sign` of NaN is not modelled.
- `Descriptors.DescriptorForGradients`: derivative values are NaN-free reals. A NaN value gives a sign set outside the four handled ones, which raises "unforeseen sign values" in Python; that path cannot occur in the model, so this promise holds for NaN-free values only.
- `Descriptors.DescriptorMeaning`: derivative values are NaN-free reals. A NaN value gives a sign set outside the four handled ones, which raises "unforeseen sign values" in Python; that path cannot occur in the model, so this promise holds for NaN-free values only.
- `Descriptors.NonEmptyClassified`: derivative values are NaN-free reals. A NaN value gives a sign set outside the four handled ones, which raises "unforeseen sign values" in Python; that path cannot occur in the model, so this promise holds for NaN-free values only.
- `Constraints.SymPyClassifyFails`: derivative values are NaN-free reals. A NaN value gives a sign set outside the four handled ones, which raises "unforeseen sign values" in Python; that path cannot occur in the model, so this promise holds for NaN-free values only.
- `Constraints.JaxClassifyFails`: derivative values are NaN-free reals. A NaN value gives a sign set outside the four handled ones, which raises "unforeseen sign values" in Python; that path cannot occur in the model, so this promise holds for NaN-free values only.
- `Benchmarks.ClassifyNeverUnforeseen`: derivative values are NaN-free reals. A NaN value gives a sign set outside the four handled ones, which raises "unforeseen sign values" in Python; that path cannot occur in the model, so this promise holds for NaN-free values only.
- `Benchmarks.SampledCheckNeverUnforeseen`: derivative values are NaN-free reals. A NaN value gives a sign set outside the four handled ones, which raises "unforeseen sign values" in Python; that path cannot occur in the model, so this promise holds for NaN-free values only.
- Default arguments are required parameters in the model: `patience=10` of `create_dataset_from_sampling_objectives` and `create_dataset`, `noise_level=0` of `create_dataset`, `Library="SymPy"` of `check_constraints`, `use_display_names=False` of the check methods, and `initialize_constraint_checking_datasets=True` of the constructor.
- `Equations.KnownEquation.GetDomainRange`: models the min/max fold only. The final `abs(log10(abs(max - min)))` is floating-point work and is left out. An empty objective list is an error value, where Python would fail on `None`.
- Catalog lookups are inputs to the `Benchmark` constructor:
  - `get_constraints`, `get_var_names`, `get_eq_name` and `get_eq_source`;
  - the equation class is passed in already constructed.

  Both check methods re-read `get_constraints()`, and the model uses the constructor's list, which is the same catalog entry.
- `Benchmarks.Benchmark.CreateDataset`: returns the training table only. `read_test_dataframe` reads a CSV file, which is I/O.
- pandas and file I/O: `to_dataframe`, `create_dataframe`, `create_input_dataset`, `get_inputs_from_dataset`.
- Symbolic helpers built on SymPy solving and substitution: `find_stationary_points`, `from_sympy_eq`, `check_num_vars_consistency`, `get_op_count`.
- `get_eq_name` with a prefix and suffix is shadowed by the later definition, and `get_domain_ranges` and `calculate` are thin wrappers. None of them is modelled.
- Warnings, prints and `warnings.filterwarnings`.
- `Benchmarks.Benchmark.ReadDatasetsForConstraintChecking`: the model requires every checked constraint's sample space to have one range per variable, or a single range. Other lengths make numpy's broadcasting fail, and are excluded by the class invariant rather than modelled as errors.
- `Benchmarks.Benchmark.constructor`: the class invariant's broadcasting requirement on the sample spaces binds even when the cache is not drawn at construction. Python constructs such a benchmark and fails only at its first check; the model does not construct it.
- `Equations.KnownEquation.constructor`: `assert len(sampling_objs) == num_vars` and `assert len(kwargs_list) == num_vars` are preconditions. Symbols carry their keyword arguments as a map; SymPy's assumption system is not modelled.
- Assertions that raise in Python are error values. The Python `raise "..."` statements actually raise a `TypeError` (raising a string), which the model does not distinguish from the intended message.

## Findings

| source | as written | input that shows it | evidently intended | confidence | as-written member | corrected member |
|---|---|---|---|---|---|---|
| SCRBenchmark/base.py:135-138 | The maximum is updated in an `elif` after the minimum check, so an objective with a smaller minimum never has its maximum considered. | Objectives with ranges (1, 2), then (0, 100): the fold gives (0, 2) and misses the maximum 100. | The domain's smallest minimum and largest maximum. | not executed | Equations.RangeFoldAsWrittenMissesMaximum | Equations.RangeFoldIsMinMax |

=== FILE: benchmark.dfy ===
/** `Benchmark`: an equation together with its shape constraints, the per-constraint
    samples that constraint checking evaluates candidates on, and the generation of
    training data. */
module Benchmarks {
  import opened Outcomes
  import opened Sampling
  import opened Descriptors
  import opened Constraints
  import opened Equations

  /** `CONSTRAINT_SAMPLING_SIZE`: points sampled per constraint. */
  const ConstraintSamplingSize: nat := 100_000

  /** A constraint's sample space can be broadcast to one range per variable: it
      has one range per variable, or a single range for all of them. */
  predicate Broadcasts(c: Constraint, n: nat) {
    |c.sampleSpace| == n || |c.sampleSpace| == 1
  }

  /** The range column `col` is drawn from. */
  function RangeFor(space: seq<Range>, col: nat): Range
    requires |space| == 1 || col < |space|
  {
    if |space| == 1 then space[0] else space[col]
  }

  /** `np.random.uniform(lows, highs, (CONSTRAINT_SAMPLING_SIZE, n))`, given the unit
      draws `u(row, col)`: each value is `low + (high - low) * u`. */
  function UniformTable(space: seq<Range>, n: nat, u: (nat, nat) -> real): (t: Points)
    requires |space| == n || |space| == 1
    ensures |t| == ConstraintSamplingSize
    ensures forall r :: 0 <= r < |t| ==> |t[r]| == n
  {
    seq(ConstraintSamplingSize, r requires 0 <= r < ConstraintSamplingSize =>
      seq(n, col requires 0 <= col < n => Scale(RangeFor(space, col), u(r, col))))
  }

  /** A unit draw `x` moved into the range `rg`. */
  function Scale(rg: Range, x: real): real {
    rg.low + (rg.high - rg.low) * x
  }

  /** A unit draw in [0, 1) lands in the range, below its upper bound when the
      range is not empty. */
  lemma ScaleInRange(rg: Range, x: real)
    requires rg.low <= rg.high && 0.0 <= x < 1.0
    ensures rg.low <= Scale(rg, x) <= rg.high
    ensures rg.low < rg.high ==> Scale(rg, x) < rg.high
  {
    var d := rg.high - rg.low;
    assert d * (1.0 - x) == d - d * x;
    assert d * x >= 0.0 && d * (1.0 - x) >= 0.0;
    assert Scale(rg, x) == rg.low + d * x && rg.high == rg.low + d;
    if d > 0.0 {
      assert d * (1.0 - x) > 0.0;
      assert d * x < d;
    }
  }

  /** With unit draws in [0, 1) and ordered bounds, every value of column `col` lies
      in that column's range, below its upper bound when the range is not empty. */
  lemma UniformTableInRange(space: seq<Range>, n: nat, u: (nat, nat) -> real)
    requires |space| == n || |space| == 1
    requires forall r: nat, col: nat :: 0.0 <= u(r, col) < 1.0
    requires forall k :: 0 <= k < |space| ==> space[k].low <= space[k].high
    ensures var t := UniformTable(space, n, u);
      forall r, col :: 0 <= r < |t| && 0 <= col < n ==>
        RangeFor(space, col).low <= t[r][col] <= RangeFor(space, col).high &&
        (RangeFor(space, col).low < RangeFor(space, col).high ==> t[r][col] < RangeFor(space, col).high)
  {
    var t := UniformTable(space, n, u);
    forall r, col | 0 <= r < |t| && 0 <= col < n
      ensures RangeFor(space, col).low <= t[r][col] <= RangeFor(space, col).high
      ensures RangeFor(space, col).low < RangeFor(space, col).high ==> t[r][col] < RangeFor(space, col).high
    {
      ScaleInRange(RangeFor(space, col), u(r, col));
    }
  }

  /** The samples of the checkable constraints `cs`: the `k`-th one drawn with the
      unit draws `uniform(k, ., .)`; a later constraint with the same ID replaces the
      earlier sample. */
  function Cache(cs: seq<Constraint>, n: nat, uniform: (nat, nat, nat) -> real): map<string, Points>
    requires forall c :: c in cs ==> Broadcasts(c, n)
  {
    if cs == [] then map[]
    else
      var k: nat := |cs| - 1;
      assert cs[k] in cs && Broadcasts(cs[k], n);
      Cache(cs[..k], n, uniform)[cs[k].id := UniformTable(cs[k].sampleSpace, n, (r: nat, col: nat) => uniform(k, r, col))]
  }

  /** The set of IDs of `cs`. */
  function Ids(cs: seq<Constraint>): set<string> {
    set c | c in cs :: c.id
  }

  /** Samples keyed by the IDs of `cs`, each `CONSTRAINT_SAMPLING_SIZE` points of `n`
      coordinates. */
  ghost predicate CacheReady(cache: map<string, Points>, cs: seq<Constraint>, n: nat) {
    cache.Keys == Ids(cs) &&
    forall id :: id in cache ==>
      |cache[id]| == ConstraintSamplingSize && forall r :: 0 <= r < |cache[id]| ==> |cache[id][r]| == n
  }

  /** The cache has exactly the constraints' IDs as keys, and every sample the
      shape `(CONSTRAINT_SAMPLING_SIZE, n)`. */
  lemma {:induction false} CacheShape(cs: seq<Constraint>, n: nat, uniform: (nat, nat, nat) -> real)
    requires forall c :: c in cs ==> Broadcasts(c, n)
    ensures CacheReady(Cache(cs, n, uniform), cs, n)
    ensures Covered(Cache(cs, n, uniform), cs)
  {
    if cs != [] {
      var k := |cs| - 1;
      CacheShape(cs[..k], n, uniform);
      assert cs == cs[..k] + [cs[k]];
      assert Ids(cs) == Ids(cs[..k]) + {cs[k].id};
    }
  }

  /** The candidate expression under test, through its derivatives: what SymPy's
      derivative with a given name tag evaluates to at a point, and JAX's gradient
      components and Hessian entries. */
  datatype Candidate = Candidate(
    deriv: (DerivativeKey, seq<real>) -> real,
    grad: (seq<real>, nat) -> real,
    hess: (seq<real>, nat, nat) -> real)

  /** `xs[:, -1] += noise`: the output column of row `k` moves by `noise(k)`; the
      inputs stay as they are. */
  function AddNoise(t: Table, noise: nat -> real): (t': Table)
    requires forall k :: 0 <= k < |t| ==> |t[k]| > 0
    ensures |t'| == |t|
    ensures forall k :: 0 <= k < |t| ==>
      |t'[k]| == |t[k]| && t'[k][..|t[k]| - 1] == t[k][..|t[k]| - 1] &&
      t'[k][|t[k]| - 1] == t[k][|t[k]| - 1] + noise(k)
  {
    seq(|t|, k requires 0 <= k < |t| => t[k][..|t[k]| - 1] + [t[k][|t[k]| - 1] + noise(k)])
  }

  /** `t` is `g` with each row's output, at position `n`, moved by that row's noise
      when `noisy` is set, and left alone otherwise; the inputs are unchanged. */
  predicate NoisyCopy(t: Table, g: Table, n: nat, noisy: bool, noise: nat -> real) {
    |t| == |g| &&
    (forall k :: 0 <= k < |g| ==> |t[k]| == |g[k]| == n + 1) &&
    forall k :: 0 <= k < |g| ==>
      t[k][..n] == g[k][..n] && t[k][n] == g[k][n] + (if noisy then noise(k) else 0.0)
  }

  /** Adding noise to a table of rows `x0, ..., x{n-1}, y` changes the outputs only. */
  lemma AddNoiseKeepsInputs(g: Table, n: nat, noise: nat -> real)
    requires forall row :: row in g ==> |row| == n + 1
    ensures forall k :: 0 <= k < |g| ==> |g[k]| > 0
    ensures NoisyCopy(AddNoise(g, noise), g, n, true, noise)
    ensures NoisyCopy(g, g, n, false, noise)
  {
  }

  /** A ready cache holds, for every constraint of `cs`, a non-empty sample of
      `n`-coordinate points. */
  lemma ReadyCacheCovers(cache: map<string, Points>, cs: seq<Constraint>, n: nat)
    requires CacheReady(cache, cs, n)
    ensures Covered(cache, cs)
    ensures forall c :: c in cs ==> |cache[c.id]| > 0 && Width(cache[c.id], n)
  {
    forall c | c in cs ensures c.id in cache {
      assert c.id in Ids(cs);
    }
  }

  /** The lambdified derivative takes one argument per dictionary key, and every
      sample has `n` columns. With exactly `n` keys the check never fails on the
      argument count. With another number of keys, a check whose first constraint
      resolves to a derivative fails on it. */
  lemma SymPyArity(names: seq<string>, useDisplayNames: bool, deriv: (DerivativeKey, seq<real>) -> real,
                   cache: map<string, Points>, cs: seq<Constraint>, n: nat)
    requires Covered(cache, cs)
    requires forall i, j :: 0 <= i < j < |names| ==> names[i] != names[j]
    requires forall c :: c in cs ==> |cache[c.id]| > 0 && Width(cache[c.id], n)
    ensures |names| == n ==> Verdict(SymPy(names, useDisplayNames, deriv), cache, cs) != Err(ArgumentCountMismatch)
    ensures |names| != n && cs != [] &&
            Resolves(names, if useDisplayNames then cs[0].varDisplayName else cs[0].varName) ==>
      Verdict(SymPy(names, useDisplayNames, deriv), cache, cs) == Err(ArgumentCountMismatch)
  {
    var b := SymPy(names, useDisplayNames, deriv);
    var ds := Classifications(b, cache, cs);
    VerdictCharacterized(b, cache, cs);
    if |names| != n && cs != [] {
      assert cs[0] in cs;
      var xs0 := cache[cs[0].id];
      assert |xs0[0]| == n;
      SymPyClassifyFails(names, useDisplayNames, deriv, cs[0], xs0);
      assert ds[0] == Classify(b, cs[0], xs0);
    }
    if Verdict(b, cache, cs).Err? {
      var i :| 0 <= i < |cs| && ds[i].Err? && Verdict(b, cache, cs).error == ds[i].error &&
               forall k :: 0 <= k < i ==> ds[k].Ok?;
      assert cs[i] in cs;
      var xs := cache[cs[i].id];
      SymPyClassifyFails(names, useDisplayNames, deriv, cs[i], xs);
      assert ds[i] == Classify(b, cs[i], xs);
      if |names| == n {
        assert Width(xs, |names|);
        assert ds[i].error != ArgumentCountMismatch;
      } else if cs != [] {
        assert i == 0;
      }
    }
  }

  /** When no classification has failed up to position `i`, the loop's outcome is
      decided by the rest. */
  lemma CollectStep(cs: seq<Constraint>, ds: seq<Result<Descriptor>>, i: nat, violated: seq<Constraint>)
    requires |cs| == |ds| && i < |cs|
    requires Collect(cs[..i], ds[..i]) == Ok(violated)
    ensures ds[i].Err? ==> Collect(cs, ds) == Err(ds[i].error)
    ensures ds[i].Ok? ==>
      Collect(cs[..i + 1], ds[..i + 1]) == Ok(if ds[i].value != cs[i].descriptor then violated + [cs[i]] else violated)
  {
    assert cs[..i + 1][..i] == cs[..i] && ds[..i + 1][..i] == ds[..i];
    if ds[i].Err? {
      CollectFails(cs[..i], ds[..i]);
      CollectFails(cs, ds);
      assert forall k :: 0 <= k < i ==> ds[..i][k] == ds[k];
      assert forall k :: 0 <= k < i ==> ds[k].Ok?;
    }
  }

  /** The loop of `check_constraints_SymPy` over the checkable constraints `cs`: the
      derivative named after each constraint's variable is evaluated on its sample
      and classified; a mismatch is recorded, a failure ends the check. */
  method CheckSymPy(names: seq<string>, useDisplayNames: bool, deriv: (DerivativeKey, seq<real>) -> real,
                    cache: map<string, Points>, cs: seq<Constraint>)
    returns (r: Result<(bool, seq<Constraint>)>)
    requires Covered(cache, cs)
    ensures r == Verdict(SymPy(names, useDisplayNames, deriv), cache, cs)
  {
    var keys := DerivativeKeys(names);
    ghost var ds := Classifications(SymPy(names, useDisplayNames, deriv), cache, cs);
    var violated := [];
    var i := 0;
    while i < |cs|
      invariant 0 <= i <= |cs|
      invariant Collect(cs[..i], ds[..i]) == Ok(violated)
    {
      var c := cs[i];
      var xs := cache[c.id];
      var ms := Matches(keys, if useDisplayNames then c.varDisplayName else c.varName);
      CollectStep(cs, ds, i, violated);
      assert ds[i] == Classify(SymPy(names, useDisplayNames, deriv), c, xs);
      if |ms| > 1 {
        return Err(DerivativesNotUniquelyNamed);
      }
      if |ms| == 0 {
        return Err(DerivativeNotAvailable);
      }
      if !Width(xs, |names|) {
        return Err(ArgumentCountMismatch);
      }
      var descriptor := DescriptorForGradients(seq(|xs|, k requires 0 <= k < |xs| => deriv(ms[0], xs[k])));
      if descriptor.Err? {
        return Err(descriptor.error);
      }
      if descriptor.value != c.descriptor {
        violated := violated + [c];
      }
      i := i + 1;
    }
    assert cs[..i] == cs && ds[..i] == ds;
    return Ok((|violated| == 0, violated));
  }

  /** The loop of `check_constraints_JAX`: first-order constraints read a gradient
      component, second-order ones a Hessian entry, by the variables' positions. */
  method CheckJax(varNames: seq<string>, grad: (seq<real>, nat) -> real, hess: (seq<real>, nat, nat) -> real,
                  cache: map<string, Points>, cs: seq<Constraint>)
    returns (r: Result<(bool, seq<Constraint>)>)
    requires Covered(cache, cs)
    ensures r == Verdict(Jax(varNames, grad, hess), cache, cs)
  {
    ghost var ds := Classifications(Jax(varNames, grad, hess), cache, cs);
    var violated := [];
    var i := 0;
    while i < |cs|
      invariant 0 <= i <= |cs|
      invariant Collect(cs[..i], ds[..i]) == Ok(violated)
    {
      var c := cs[i];
      var xs := cache[c.id];
      CollectStep(cs, ds, i, violated);
      assert ds[i] == Classify(Jax(varNames, grad, hess), c, xs);
      var descriptor: Result<Descriptor>;
      if c.order == 1 {
        var index := match c.varName { case Single(s) => IndexOf(varNames, s) case List(_) => Err(VariableNotFound) };
        if index.Err? {
          return Err(index.error);
        }
        descriptor := DescriptorForGradients(seq(|xs|, k requires 0 <= k < |xs| => grad(xs[k], index.value)));
      } else if c.order == 2 {
        var v1 := Element(c.varName, 0);
        if v1.Err? {
          return Err(v1.error);
        }
        var index1 := IndexOf(varNames, v1.value);
        if index1.Err? {
          return Err(index1.error);
        }
        var v2 := Element(c.varName, 1);
        if v2.Err? {
          return Err(v2.error);
        }
        var index2 := IndexOf(varNames, v2.value);
        if index2.Err? {
          return Err(index2.error);
        }
        descriptor := DescriptorForGradients(seq(|xs|, k requires 0 <= k < |xs| => hess(xs[k], index1.value, index2.value)));
      } else {
        return Err(UnhandledOrder(c.order));
      }
      assert descriptor == ds[i];
      if descriptor.Err? {
        return Err(descriptor.error);
      }
      if descriptor.value != c.descriptor {
        violated := violated + [c];
      }
      i := i + 1;
    }
    assert cs[..i] == cs && ds[..i] == ds;
    return Ok((|violated| == 0, violated));
  }

  class Benchmark {
    const equation: KnownEquation
    /** `get_var_names()`: the variables' display names, from the catalog. */
    const displayNames: seq<string>
    /** `get_constraints()`: the equation's constraints, from the catalog. */
    const constraints: seq<Constraint>
    /** The per-constraint samples, once drawn. */
    var datasets: Option<map<string, Points>>

    ghost predicate Valid()
      reads this
    {
      equation.Valid() &&
      (forall c :: c in constraints && Checkable(c) ==> Broadcasts(c, equation.GetVarCount())) &&
      (datasets.Some? ==> CacheReady(datasets.value, Checked(), equation.GetVarCount()))
    }

    /** The constraints that are checked: all but the "no constraint" ones. */
    function Checked(): seq<Constraint> {
      CheckableConstraints(constraints)
    }

    /** The samples `read_datasets_for_constraint_checking` draws. */
    function FreshCache(uniform: (nat, nat, nat) -> real): map<string, Points>
      requires equation.Valid()
      requires forall c :: c in constraints && Checkable(c) ==> Broadcasts(c, equation.GetVarCount())
    {
      Cache(Checked(), equation.GetVarCount(), uniform)
    }

    /** The samples are drawn at construction when `initialize` is set, and left
        for the first check otherwise. */
    constructor (equation: KnownEquation, displayNames: seq<string>, constraints: seq<Constraint>,
                 initialize: bool, uniform: (nat, nat, nat) -> real)
      requires equation.Valid()
      requires forall c :: c in constraints && Checkable(c) ==> Broadcasts(c, equation.GetVarCount())
      ensures Valid()
      ensures this.equation == equation && this.displayNames == displayNames && this.constraints == constraints
      ensures datasets == if initialize then Some(FreshCache(uniform)) else None
    {
      this.equation := equation;
      this.displayNames := displayNames;
      this.constraints := constraints;
      datasets := None;
      new;
      if initialize {
        ReadDatasetsForConstraintChecking(uniform);
      }
    }

    /** `read_datasets_for_constraint_checking`: one sample per checkable constraint,
        keyed by its ID. */
    method ReadDatasetsForConstraintChecking(uniform: (nat, nat, nat) -> real)
      requires Valid()
      modifies this
      ensures Valid()
      ensures datasets == Some(FreshCache(uniform))
    {
      var cs := Checked();
      var n := equation.GetVarCount();
      var d := map[];
      var k: nat := 0;
      while k < |cs|
        invariant k <= |cs|
        invariant d == Cache(cs[..k], n, uniform)
      {
        assert cs[..k + 1][..k] == cs[..k];
        assert cs[k] in cs;
        d := d[cs[k].id := UniformTable(cs[k].sampleSpace, n, (r: nat, col: nat) => uniform(k, r, col))];
        k := k + 1;
      }
      assert cs[..k] == cs;
      CacheShape(cs, n, uniform);
      datasets := Some(d);
    }

    /** The keys of the dictionary a SymPy candidate is parsed with: the symbols'
        names, or the display names in first-occurrence order. */
    function SymPyNames(useDisplayNames: bool): (names: seq<string>)
      requires equation.Valid()
      ensures forall i, j :: 0 <= i < j < |names| ==> names[i] != names[j]
    {
      if useDisplayNames then Dedup(displayNames) else equation.VarNames()
    }

    /** With the symbols' names, the SymPy and the JAX paths reach the same verdict
        on the cached samples whenever the candidate's derivatives agree and every
        checked constraint is well formed. */
    lemma PathsAgree(deriv: (DerivativeKey, seq<real>) -> real,
                     grad: (seq<real>, nat) -> real, hess: (seq<real>, nat, nat) -> real)
      requires Valid() && datasets.Some?
      requires forall p: seq<real>, i :: 0 <= i < |equation.VarNames()| ==>
        deriv(First(equation.VarNames()[i]), p) == grad(p, i)
      requires forall p: seq<real>, i, j :: 0 <= i < |equation.VarNames()| && 0 <= j < |equation.VarNames()| ==>
        deriv(Second(equation.VarNames()[i], equation.VarNames()[j]), p) == hess(p, i, j)
      requires forall c :: c in Checked() ==> WellFormedFor(equation.VarNames(), c)
      ensures Covered(datasets.value, Checked())
      ensures Verdict(SymPy(SymPyNames(false), false, deriv), datasets.value, Checked()) ==
              Verdict(Jax(equation.VarNames(), grad, hess), datasets.value, Checked())
    {
      ReadyCacheCovers(datasets.value, Checked(), equation.GetVarCount());
      VerdictsAgree(equation.VarNames(), deriv, grad, hess, datasets.value, Checked());
    }

    /** With display names, the parsing dictionary has one key per distinct display
        name. When that is the variable count, no check fails on the argument count;
        otherwise the check fails on the first checked constraint that resolves. */
    lemma DisplayNamesArity(deriv: (DerivativeKey, seq<real>) -> real)
      requires Valid() && datasets.Some?
      ensures Covered(datasets.value, Checked())
      ensures |Dedup(displayNames)| == equation.GetVarCount() ==>
        Verdict(SymPy(SymPyNames(true), true, deriv), datasets.value, Checked()) != Err(ArgumentCountMismatch)
      ensures |Dedup(displayNames)| != equation.GetVarCount() && Checked() != [] &&
              Resolves(Dedup(displayNames), Checked()[0].varDisplayName) ==>
        Verdict(SymPy(SymPyNames(true), true, deriv), datasets.value, Checked()) == Err(ArgumentCountMismatch)
    {
      ReadyCacheCovers(datasets.value, Checked(), equation.GetVarCount());
      SymPyArity(SymPyNames(true), true, deriv, datasets.value, Checked(), equation.GetVarCount());
    }

    /** `check_constraints_SymPy`. */
    method CheckConstraintsSymPy(deriv: (DerivativeKey, seq<real>) -> real, useDisplayNames: bool,
                                 uniform: (nat, nat, nat) -> real)
      returns (r: Result<(bool, seq<Constraint>)>)
      requires Valid()
      modifies this
      ensures Valid()
      ensures Checked() == [] ==> r == Ok((true, [])) && datasets == old(datasets)
      ensures Checked() != [] ==>
        datasets == (if old(datasets).None? then Some(FreshCache(uniform)) else old(datasets)) &&
        r == Verdict(SymPy(SymPyNames(useDisplayNames), useDisplayNames, deriv), datasets.value, Checked())
    {
      var cs := Checked();
      if |cs| == 0 {
        return Ok((true, []));
      }
      if datasets.None? {
        ReadDatasetsForConstraintChecking(uniform);
      }
      CacheShape(cs, equation.GetVarCount(), uniform);
      r := CheckSymPy(SymPyNames(useDisplayNames), useDisplayNames, deriv, datasets.value, cs);
    }

    /** `check_constraints_JAX`: derivatives are looked up by the symbols' names,
        whatever `use_display_names` says. */
    method CheckConstraintsJax(grad: (seq<real>, nat) -> real, hess: (seq<real>, nat, nat) -> real,
                               uniform: (nat, nat, nat) -> real)
      returns (r: Result<(bool, seq<Constraint>)>)
      requires Valid()
      modifies this
      ensures Valid()
      ensures Checked() == [] ==> r == Ok((true, [])) && datasets == old(datasets)
      ensures Checked() != [] ==>
        datasets == (if old(datasets).None? then Some(FreshCache(uniform)) else old(datasets)) &&
        r == Verdict(Jax(equation.VarNames(), grad, hess), datasets.value, Checked())
    {
      var cs := Checked();
      if |cs| == 0 {
        return Ok((true, []));
      }
      if datasets.None? {
        ReadDatasetsForConstraintChecking(uniform);
      }
      CacheShape(cs, equation.GetVarCount(), uniform);
      r := CheckJax(equation.VarNames(), grad, hess, datasets.value, cs);
    }

    /** `check_constraints`: only the libraries "SymPy" and "JAX" are supported. */
    method CheckConstraints(f: Candidate, library: string, useDisplayNames: bool, uniform: (nat, nat, nat) -> real)
      returns (r: Result<(bool, seq<Constraint>)>)
      requires Valid()
      modifies this
      ensures Valid()
      ensures library != "SymPy" && library != "JAX" ==>
        r == Err(UnsupportedLibrary(library)) && datasets == old(datasets)
      ensures library == "SymPy" && Checked() != [] ==>
        datasets.Some? && r == Verdict(SymPy(SymPyNames(useDisplayNames), useDisplayNames, f.deriv), datasets.value, Checked())
      ensures library == "JAX" && Checked() != [] ==>
        datasets.Some? && r == Verdict(Jax(equation.VarNames(), f.grad, f.hess), datasets.value, Checked())
      ensures Checked() == [] && (library == "SymPy" || library == "JAX") ==>
        r == Ok((true, [])) && datasets == old(datasets)
      ensures Checked() != [] && (library == "SymPy" || library == "JAX") ==>
        datasets == (if old(datasets).None? then Some(FreshCache(uniform)) else old(datasets))
    {
      if library == "SymPy" {
        r := CheckConstraintsSymPy(f.deriv, useDisplayNames, uniform);
      } else if library == "JAX" {
        r := CheckConstraintsJax(f.grad, f.hess, uniform);
      } else {
        r := Err(UnsupportedLibrary(library));
      }
    }

    /** `create_dataset` (training part): generates `sampleSize` rows and, when
        `noiseLevel > 0`, moves each output by the noise drawn for its row. */
    method CreateDataset(sampleSize: nat, noiseLevel: real, noise: nat -> real, patience: nat)
      returns (r: Result<Table>)
      requires Valid()
      ensures !(0.0 <= noiseLevel <= 1.0) ==> r == Err(NoiseLevelOutOfRange)
      ensures 0.0 <= noiseLevel <= 1.0 ==>
        var g := Generate(equation.GenerationRequest(sampleSize), patience);
        (r.Err? <==> g.Err?) && (r.Err? ==> r == g) &&
        (r.Ok? ==> |r.value| == sampleSize &&
                   NoisyCopy(r.value, g.value, equation.GetVarCount(), noiseLevel > 0.0, noise))
    {
      if !(0.0 <= noiseLevel <= 1.0) {
        return Err(NoiseLevelOutOfRange);
      }
      var xs :- equation.CreateDataset(sampleSize, patience);
      AddNoiseKeepsInputs(xs, equation.GetVarCount(), noise);
      if noiseLevel > 0.0 {
        xs := AddNoise(xs, noise);
      }
      return Ok(xs);
    }
  }

  /** Constraints declared "no constraint" are neither sampled nor reported: the
      samples are keyed by the checked constraints' IDs only, and every reported
      violation is a checked constraint of the catalog. */
  lemma NoConstraintNeverChecked(b: Backend, cs: seq<Constraint>, n: nat, uniform: (nat, nat, nat) -> real)
    requires forall c :: c in CheckableConstraints(cs) ==> Broadcasts(c, n)
    ensures var cache := Cache(CheckableConstraints(cs), n, uniform);
      cache.Keys == set c | c in cs && c.descriptor != NoConstraint :: c.id
    ensures var cache := Cache(CheckableConstraints(cs), n, uniform);
      Covered(cache, CheckableConstraints(cs)) &&
      (Verdict(b, cache, CheckableConstraints(cs)).Ok? ==>
        forall c :: c in Verdict(b, cache, CheckableConstraints(cs)).value.1 ==> c in cs && c.descriptor != NoConstraint)
  {
    var checked := CheckableConstraints(cs);
    CacheShape(checked, n, uniform);
    ViolationsFromChecked(b, Cache(checked, n, uniform), checked);
  }

  /** Classifying a non-empty sample never meets an unforeseen set of signs. */
  lemma ClassifyNeverUnforeseen(b: Backend, c: Constraint, xs: Points)
    requires |xs| > 0
    ensures Classify(b, c, xs) != Err(UnforeseenSignValues)
  {
    NonEmptyClassified();
  }

  /** On the drawn samples (`CONSTRAINT_SAMPLING_SIZE` points each) a check never
      fails with "unforeseen sign values": that error can come only from an empty
      sample. */
  lemma {:induction false} SampledCheckNeverUnforeseen(b: Backend, cs: seq<Constraint>, n: nat, uniform: (nat, nat, nat) -> real)
    requires forall c :: c in cs ==> Broadcasts(c, n)
    ensures Covered(Cache(cs, n, uniform), cs)
    ensures Verdict(b, Cache(cs, n, uniform), cs) != Err(UnforeseenSignValues)
  {
    var cache := Cache(cs, n, uniform);
    CacheShape(cs, n, uniform);
    ReadyCacheCovers(cache, cs, n);
    VerdictCharacterized(b, cache, cs);
    if Verdict(b, cache, cs).Err? {
      var ds := Classifications(b, cache, cs);
      var i :| 0 <= i < |cs| && ds[i].Err? && Verdict(b, cache, cs).error == ds[i].error;
      assert cs[i] in cs;
      var xs := cache[cs[i].id];
      ClassifyNeverUnforeseen(b, cs[i], xs);
      assert ds[i] == Classify(b, cs[i], xs);
    }
  }
}

=== FILE: constraints.dfy ===
/** Shape constraints of an equation and how one candidate expression is checked
    against them: which derivative a constraint names, how each backend evaluates it
    on the constraint's sample, and which constraints are violated. */
module Constraints {
  import opened Outcomes
  import opened Descriptors

  /** Sampled points, one row per point, one column per input variable. */
  type Points = seq<seq<real>>

  /** The variable field of a constraint: a single name (first order) or a list of
      names (second order). */
  datatype VarRef = Single(name: string) | List(names: seq<string>)

  /** One entry of a sample space: `{'low': ..., 'high': ...}`. */
  datatype Range = Range(low: real, high: real)

  datatype Constraint = Constraint(
    id: string,
    order: int,
    varName: VarRef,
    varDisplayName: VarRef,
    sampleSpace: seq<Range>,
    descriptor: Descriptor)

  /** Constraints whose descriptor is "no constraint" are never checked. */
  predicate Checkable(c: Constraint) {
    c.descriptor != NoConstraint
  }

  /** `[c for c in constraints if c[descriptor] != no_constraint]`. */
  function CheckableConstraints(cs: seq<Constraint>): (r: seq<Constraint>)
    ensures |r| <= |cs|
    ensures forall c :: c in r <==> c in cs && Checkable(c)
  {
    if cs == [] then []
    else CheckableConstraints(cs[..|cs| - 1]) + (if Checkable(cs[|cs| - 1]) then [cs[|cs| - 1]] else [])
  }

  /** The catalog positions of the checkable constraints, in increasing order. */
  function CheckablePositions(cs: seq<Constraint>): seq<nat> {
    if cs == [] then []
    else CheckablePositions(cs[..|cs| - 1]) + (if Checkable(cs[|cs| - 1]) then [|cs| - 1] else [])
  }

  /** The checkable positions are increasing, and are exactly the positions of
      checkable constraints. */
  lemma {:induction false} CheckablePositionsExact(cs: seq<Constraint>)
    ensures var ps := CheckablePositions(cs);
      (forall k :: 0 <= k < |ps| ==> ps[k] < |cs|) &&
      (forall k, l :: 0 <= k < l < |ps| ==> ps[k] < ps[l]) &&
      (forall i :: 0 <= i < |cs| ==> (i in ps <==> Checkable(cs[i])))
  {
    if cs != [] {
      var n := |cs| - 1;
      CheckablePositionsExact(cs[..n]);
      assert forall i :: 0 <= i < n ==> cs[..n][i] == cs[i];
    }
  }

  /** The filtered list holds, one for one, the constraints at the checkable
      positions. */
  lemma {:induction false} CheckablePicks(cs: seq<Constraint>)
    ensures |CheckableConstraints(cs)| == |CheckablePositions(cs)|
    ensures forall k :: 0 <= k < |CheckablePositions(cs)| ==>
      CheckablePositions(cs)[k] < |cs| && CheckableConstraints(cs)[k] == cs[CheckablePositions(cs)[k]]
  {
    if cs != [] {
      var n := |cs| - 1;
      CheckablePicks(cs[..n]);
      var r0, ps0 := CheckableConstraints(cs[..n]), CheckablePositions(cs[..n]);
      assert forall k :: 0 <= k < |ps0| ==> cs[..n][ps0[k]] == cs[ps0[k]];
      var r, ps := CheckableConstraints(cs), CheckablePositions(cs);
      if Checkable(cs[n]) {
        assert r == r0 + [cs[n]] && ps == ps0 + [n];
      } else {
        assert r == r0 && ps == ps0;
      }
      forall k | 0 <= k < |ps|
        ensures ps[k] < |cs| && r[k] == cs[ps[k]]
      {
        if k < |ps0| {
          assert ps[k] == ps0[k] && r[k] == r0[k];
        }
      }
    }
  }

  /** Filtering keeps catalog order and repeated entries: the result is the
      constraints at the checkable positions, taken in increasing order. */
  lemma CheckableInOrder(cs: seq<Constraint>)
    ensures var r, ps := CheckableConstraints(cs), CheckablePositions(cs);
      |r| == |ps| &&
      (forall k :: 0 <= k < |ps| ==> ps[k] < |cs| && r[k] == cs[ps[k]]) &&
      (forall k, l :: 0 <= k < l < |ps| ==> ps[k] < ps[l]) &&
      (forall i :: 0 <= i < |cs| ==> (i in ps <==> Checkable(cs[i])))
  {
    CheckablePositionsExact(cs);
    CheckablePicks(cs);
  }

  // ---------------------------------------------------------------------------
  // Derivative keys of the SymPy path

  /** The name tag of a derivative: a variable name (first order) or a pair of names
      (second order, differentiated by the first, then by the second). */
  datatype DerivativeKey = First(v: string) | Second(v1: string, v2: string)

  /** What a key is compared with: `var.name`, or `[prime_var_name, var.name]`. */
  function KeyRef(k: DerivativeKey): VarRef {
    match k
    case First(v) => Single(v)
    case Second(v1, v2) => List([v1, v2])
  }

  function Flatten<T>(rows: seq<seq<T>>): seq<T> {
    if rows == [] then [] else rows[0] + Flatten(rows[1..])
  }

  /** Flattening rows of width `w` puts entry `(i, j)` at `i * w + j`. */
  lemma {:induction false} FlattenAt<T>(rows: seq<seq<T>>, w: nat, i: nat, j: nat)
    requires forall r :: 0 <= r < |rows| ==> |rows[r]| == w
    requires i < |rows| && j < w
    ensures |Flatten(rows)| == |rows| * w
    ensures i * w + j < |Flatten(rows)| && Flatten(rows)[i * w + j] == rows[i][j]
  {
    FlattenLength(rows, w);
    if i > 0 {
      FlattenAt(rows[1..], w, i - 1, j);
      assert i * w + j == w + ((i - 1) * w + j);
    }
  }

  lemma {:induction false} FlattenLength<T>(rows: seq<seq<T>>, w: nat)
    requires forall r :: 0 <= r < |rows| ==> |rows[r]| == w
    ensures |Flatten(rows)| == |rows| * w
  {
    if rows != [] {
      FlattenLength(rows[1..], w);
    }
  }

  /** `f_primes + f_prime_mat_flattened`: one first-order key per name, then the rows
      of second-order keys, row `i` differentiating by name `i` first. */
  function DerivativeKeys(names: seq<string>): seq<DerivativeKey> {
    FirstKeys(names) + Flatten(PairRows(names))
  }

  /** `f_primes`: one key per name. */
  function FirstKeys(names: seq<string>): seq<DerivativeKey> {
    seq(|names|, i requires 0 <= i < |names| => First(names[i]))
  }

  /** `f_prime_mat`: row `i` holds the keys of the derivatives of `f_primes[i]`. */
  function PairRows(names: seq<string>): seq<seq<DerivativeKey>> {
    seq(|names|, i requires 0 <= i < |names| => PairRow(names, i))
  }

  function PairRow(names: seq<string>, i: nat): seq<DerivativeKey>
    requires i < |names|
  {
    seq(|names|, j requires 0 <= j < |names| => Second(names[i], names[j]))
  }

  /** The layout of the key list: `n` first-order keys, then `n * n` ordered pairs,
      pair `(i, j)` at position `n + i * n + j`. */
  lemma DerivativeKeysLayout(names: seq<string>)
    ensures |DerivativeKeys(names)| == |names| + |names| * |names|
    ensures forall i :: 0 <= i < |names| ==> DerivativeKeys(names)[i] == First(names[i])
    ensures forall i, j :: 0 <= i < |names| && 0 <= j < |names| ==>
      PairIndex(|names|, i, j) < |DerivativeKeys(names)| &&
      DerivativeKeys(names)[PairIndex(|names|, i, j)] == Second(names[i], names[j])
  {
    var n := |names|;
    var firsts, rows := FirstKeys(names), PairRows(names);
    FlattenLength(rows, n);
    forall i, j | 0 <= i < n && 0 <= j < n
      ensures PairIndex(n, i, j) < |DerivativeKeys(names)| && DerivativeKeys(names)[PairIndex(n, i, j)] == Second(names[i], names[j])
    {
      FlattenAt(rows, n, i, j);
      assert rows[i][j] == Second(names[i], names[j]);
      assert DerivativeKeys(names)[n + (i * n + j)] == Flatten(rows)[i * n + j];
    }
  }

  /** Where the key of the pair `(i, j)` sits among `n` names. */
  function PairIndex(n: nat, i: nat, j: nat): nat {
    n + i * n + j
  }

  /** The derivatives whose name tag equals `ref`, in key order; the order of the
      derivative plays no part. */
  function Matches(keys: seq<DerivativeKey>, ref: VarRef): (ms: seq<DerivativeKey>)
    ensures |ms| <= |keys|
    ensures forall k :: k in ms ==> k in keys && KeyRef(k) == ref
  {
    if keys == [] then []
    else Matches(keys[..|keys| - 1], ref) + (if KeyRef(keys[|keys| - 1]) == ref then [keys[|keys| - 1]] else [])
  }

  /** A name tag that one of the keys built from `names` carries. */
  predicate Resolves(names: seq<string>, ref: VarRef) {
    match ref
    case Single(s) => s in names
    case List(l) => |l| == 2 && l[0] in names && l[1] in names
  }

  /** The key a resolving name tag stands for. */
  function KeyFor(ref: VarRef): DerivativeKey
    requires ref.Single? || |ref.names| == 2
  {
    match ref
    case Single(s) => First(s)
    case List(l) => Second(l[0], l[1])
  }

  /** If exactly position `p` carries `ref`, matching returns that key alone. */
  lemma {:induction false} MatchesOne(keys: seq<DerivativeKey>, ref: VarRef, p: nat)
    requires p < |keys| && KeyRef(keys[p]) == ref
    requires forall q :: 0 <= q < |keys| && q != p ==> KeyRef(keys[q]) != ref
    ensures Matches(keys, ref) == [keys[p]]
  {
    var init := keys[..|keys| - 1];
    if p == |keys| - 1 {
      MatchesNone(init, ref);
    } else {
      MatchesOne(init, ref, p);
    }
  }

  /** If no position carries `ref`, nothing matches. */
  lemma {:induction false} MatchesNone(keys: seq<DerivativeKey>, ref: VarRef)
    requires forall q :: 0 <= q < |keys| ==> KeyRef(keys[q]) != ref
    ensures Matches(keys, ref) == []
  {
    if keys != [] {
      MatchesNone(keys[..|keys| - 1], ref);
    }
  }

  lemma {:induction false} MatchesAppend(a: seq<DerivativeKey>, b: seq<DerivativeKey>, ref: VarRef)
    ensures Matches(a + b, ref) == Matches(a, ref) + Matches(b, ref)
  {
    if b == [] {
      assert a + b == a;
    } else {
      var init, last := b[..|b| - 1], b[|b| - 1];
      var tail := if KeyRef(last) == ref then [last] else [];
      MatchesAppend(a, init, ref);
      assert (a + b)[..|a + b| - 1] == a + init;
      assert (a + b)[|a + b| - 1] == last;
      assert Matches(a + b, ref) == Matches(a + init, ref) + tail;
      assert Matches(b, ref) == Matches(init, ref) + tail;
    }
  }

  /** Matching on flattened rows: no row matches, so nothing does. */
  lemma {:induction false} FlattenMatchesNone(rows: seq<seq<DerivativeKey>>, ref: VarRef)
    requires forall i :: 0 <= i < |rows| ==> Matches(rows[i], ref) == []
    ensures Matches(Flatten(rows), ref) == []
  {
    if rows != [] {
      FlattenMatchesNone(rows[1..], ref);
      MatchesAppend(rows[0], Flatten(rows[1..]), ref);
    }
  }

  /** Matching on flattened rows: only row `p` matches, so its match is the only one. */
  lemma {:induction false} FlattenMatchesOne(rows: seq<seq<DerivativeKey>>, ref: VarRef, p: nat, k: DerivativeKey)
    requires p < |rows| && Matches(rows[p], ref) == [k]
    requires forall i :: 0 <= i < |rows| && i != p ==> Matches(rows[i], ref) == []
    ensures Matches(Flatten(rows), ref) == [k]
  {
    MatchesAppend(rows[0], Flatten(rows[1..]), ref);
    if p == 0 {
      FlattenMatchesNone(rows[1..], ref);
    } else {
      FlattenMatchesOne(rows[1..], ref, p - 1, k);
    }
  }

  /** Within one row of pairs only `[names[i], b]` can match, once when `b` is a
      name. */
  lemma PairRowMatches(names: seq<string>, i: nat, ref: VarRef)
    requires i < |names| && forall i, j :: 0 <= i < j < |names| ==> names[i] != names[j]
    ensures Resolves(names, ref) && ref.List? && ref.names[0] == names[i] ==>
      Matches(PairRow(names, i), ref) == [KeyFor(ref)]
    ensures !(Resolves(names, ref) && ref.List? && ref.names[0] == names[i]) ==>
      Matches(PairRow(names, i), ref) == []
  {
    var row := PairRow(names, i);
    if Resolves(names, ref) && ref.List? && ref.names[0] == names[i] {
      var j :| 0 <= j < |names| && names[j] == ref.names[1];
      assert ref.names == [names[i], names[j]];
      MatchesOne(row, ref, j);
    } else {
      forall q | 0 <= q < |row|
        ensures KeyRef(row[q]) != ref
      {
        assert row[q] == Second(names[i], names[q]);
      }
      MatchesNone(row, ref);
    }
  }

  /** Row `i` of the pair keys matches `ref` only when `ref` is a resolving pair
      whose first name is `names[i]`. */
  lemma PairRowsMatches(names: seq<string>, ref: VarRef)
    requires forall i, j :: 0 <= i < j < |names| ==> names[i] != names[j]
    ensures forall i :: 0 <= i < |names| && Resolves(names, ref) && ref.List? && ref.names[0] == names[i] ==>
      Matches(PairRows(names)[i], ref) == [KeyFor(ref)]
    ensures forall i :: 0 <= i < |names| && !(Resolves(names, ref) && ref.List? && ref.names[0] == names[i]) ==>
      Matches(PairRows(names)[i], ref) == []
  {
    forall i | 0 <= i < |names|
      ensures Matches(PairRows(names)[i], ref) == Matches(PairRow(names, i), ref)
    {
    }
    forall i | 0 <= i < |names|
      ensures Resolves(names, ref) && ref.List? && ref.names[0] == names[i] ==> Matches(PairRow(names, i), ref) == [KeyFor(ref)]
      ensures !(Resolves(names, ref) && ref.List? && ref.names[0] == names[i]) ==> Matches(PairRow(names, i), ref) == []
    {
      PairRowMatches(names, i, ref);
    }
  }

  /** With pairwise distinct names, a name tag matches exactly one derivative when
      it names a variable or an ordered pair of variables, and none otherwise. */
  lemma UniqueMatch(names: seq<string>, ref: VarRef)
    requires forall i, j :: 0 <= i < j < |names| ==> names[i] != names[j]
    ensures |Matches(DerivativeKeys(names), ref)| == (if Resolves(names, ref) then 1 else 0)
    ensures Resolves(names, ref) ==> Matches(DerivativeKeys(names), ref) == [KeyFor(ref)]
  {
    var firsts, rows := FirstKeys(names), PairRows(names);
    MatchesAppend(firsts, Flatten(rows), ref);
    FirstKeysMatch(names, ref);
    PairKeysMatch(names, ref);
  }

  /** Among the first-order keys only `Single(name)` of a variable matches, once. */
  lemma FirstKeysMatch(names: seq<string>, ref: VarRef)
    requires forall i, j :: 0 <= i < j < |names| ==> names[i] != names[j]
    ensures Matches(FirstKeys(names), ref) == if Resolves(names, ref) && ref.Single? then [KeyFor(ref)] else []
  {
    if Resolves(names, ref) && ref.Single? {
      var p :| 0 <= p < |names| && names[p] == ref.name;
      MatchesOne(FirstKeys(names), ref, p);
    } else {
      MatchesNone(FirstKeys(names), ref);
    }
  }

  /** Among the pair keys only a pair of variables matches, once. */
  lemma PairKeysMatch(names: seq<string>, ref: VarRef)
    requires forall i, j :: 0 <= i < j < |names| ==> names[i] != names[j]
    ensures Matches(Flatten(PairRows(names)), ref) == if Resolves(names, ref) && ref.List? then [KeyFor(ref)] else []
  {
    var rows := PairRows(names);
    PairRowsMatches(names, ref);
    if Resolves(names, ref) && ref.List? {
      var p :| 0 <= p < |names| && names[p] == ref.names[0];
      assert Matches(rows[p], ref) == [KeyFor(ref)];
      forall i | 0 <= i < |rows| && i != p
        ensures Matches(rows[i], ref) == []
      {
        assert names[i] != ref.names[0];
      }
      FlattenMatchesOne(rows, ref, p, KeyFor(ref));
    } else {
      assert forall i :: 0 <= i < |rows| ==> Matches(rows[i], ref) == [];
      FlattenMatchesNone(rows, ref);
    }
  }

  // ---------------------------------------------------------------------------
  // Evaluating a constraint

  /** `list.index`: the first position holding `s`. */
  function IndexOf(names: seq<string>, s: string): (r: Result<nat>)
    ensures r.Err? <==> s !in names
    ensures r.Err? ==> r.error == VariableNotFound
    ensures r.Ok? ==> r.value < |names| && names[r.value] == s
    ensures r.Ok? ==> forall k :: 0 <= k < r.value ==> names[k] != s
  {
    if names == [] then Err(VariableNotFound)
    else if names[0] == s then Ok(0)
    else
      var k :- IndexOf(names[1..], s);
      Ok(k + 1)
  }

  /** `var_name_constraint[k]`: a character of a single name (as a one-letter
      string), or an element of a list of names. */
  function Element(ref: VarRef, k: nat): Result<string> {
    match ref
    case Single(s) => if k < |s| then Ok([s[k]]) else Err(IndexOutOfRange)
    case List(l) => if k < |l| then Ok(l[k]) else Err(IndexOutOfRange)
  }

  /** How a candidate's derivatives are obtained.
      SymPy: `names` are the keys of the local dictionary the candidate is parsed
      with, and `deriv(key, point)` is the value at `point` of the derivative whose
      name tag is `key`.
      JAX: `varNames` are the equation's symbol names, `grad(point, i)` the i-th
      gradient component and `hess(point, i, j)` a Hessian entry. */
  datatype Backend =
    | SymPy(names: seq<string>, useDisplayNames: bool, deriv: (DerivativeKey, seq<real>) -> real)
    | Jax(varNames: seq<string>, grad: (seq<real>, nat) -> real, hess: (seq<real>, nat, nat) -> real)

  /** Every point of the sample has `m` coordinates: the lambdified derivative,
      which takes one argument per dictionary key, accepts the sample's columns. */
  predicate Width(xs: Points, m: nat) {
    forall r :: 0 <= r < |xs| ==> |xs[r]| == m
  }

  /** The descriptor a candidate exhibits on one constraint's sample `xs`. */
  function Classify(b: Backend, c: Constraint, xs: Points): (r: Result<Descriptor>)
    ensures |xs| == 0 ==> r.Err?
    ensures r != Ok(Unknown)
  {
    match b
    case SymPy(names, useDisplayNames, deriv) =>
      var ms := Matches(DerivativeKeys(names), if useDisplayNames then c.varDisplayName else c.varName);
      if |ms| > 1 then Err(DerivativesNotUniquelyNamed)
      else if |ms| == 0 then Err(DerivativeNotAvailable)
      else if !Width(xs, |names|) then Err(ArgumentCountMismatch)
      else DescriptorForGradients(seq(|xs|, r requires 0 <= r < |xs| => deriv(ms[0], xs[r])))
    case Jax(varNames, grad, hess) =>
      if c.order == 1 then
        var i :- match c.varName {
          case Single(s) => IndexOf(varNames, s)
          case List(_) => Err(VariableNotFound)
        };
        DescriptorForGradients(seq(|xs|, r requires 0 <= r < |xs| => grad(xs[r], i)))
      else if c.order == 2 then
        var v1 :- Element(c.varName, 0);
        var i :- IndexOf(varNames, v1);
        var v2 :- Element(c.varName, 1);
        var j :- IndexOf(varNames, v2);
        DescriptorForGradients(seq(|xs|, r requires 0 <= r < |xs| => hess(xs[r], i, j)))
      else Err(UnhandledOrder(c.order))
  }

  /** Every constraint has a sample in the cache. */
  predicate Covered(cache: map<string, Points>, cs: seq<Constraint>) {
    forall c :: c in cs ==> c.id in cache
  }

  /** The classification of every constraint, each on its own sample. */
  function Classifications(b: Backend, cache: map<string, Points>, cs: seq<Constraint>): (ds: seq<Result<Descriptor>>)
    requires Covered(cache, cs)
    ensures |ds| == |cs|
  {
    seq(|cs|, i requires 0 <= i < |cs| => Classify(b, cs[i], cache[cs[i].id]))
  }

  /** The loop over the constraints, given each one's classification `ds[i]`: the
      first failing classification is raised; otherwise every constraint whose
      classified descriptor differs from its declared one is appended. */
  function Collect(cs: seq<Constraint>, ds: seq<Result<Descriptor>>): (r: Result<seq<Constraint>>)
    requires |cs| == |ds|
    ensures r.Ok? ==> |r.value| <= |cs|
  {
    if cs == [] then Ok([])
    else
      var prev :- Collect(cs[..|cs| - 1], ds[..|ds| - 1]);
      var d :- ds[|ds| - 1];
      Ok(if d != cs[|cs| - 1].descriptor then prev + [cs[|cs| - 1]] else prev)
  }

  /** `violated_constraints` after checking `cs` in order, or the first error raised. */
  function Violations(b: Backend, cache: map<string, Points>, cs: seq<Constraint>): Result<seq<Constraint>>
    requires Covered(cache, cs)
  {
    Collect(cs, Classifications(b, cache, cs))
  }

  /** `(len(violated) == 0, violated)`. */
  function Verdict(b: Backend, cache: map<string, Points>, cs: seq<Constraint>): (r: Result<(bool, seq<Constraint>)>)
    requires Covered(cache, cs)
    ensures r.Ok? ==> (r.value.0 <==> r.value.1 == []) && |r.value.1| <= |cs|
  {
    var v :- Violations(b, cache, cs);
    Ok((|v| == 0, v))
  }

  /** Positions whose constraint is classified, with a descriptor other than the
      declared one, in increasing order. */
  function ViolatedPositions(cs: seq<Constraint>, ds: seq<Result<Descriptor>>): seq<nat>
    requires |cs| == |ds|
  {
    if cs == [] then []
    else
      var i := |cs| - 1;
      ViolatedPositions(cs[..i], ds[..i]) + (if ds[i].Ok? && ds[i].value != cs[i].descriptor then [i] else [])
  }

  /** The loop fails exactly when some classification fails, and then with the error
      of the first one. */
  lemma {:induction false} CollectFails(cs: seq<Constraint>, ds: seq<Result<Descriptor>>)
    requires |cs| == |ds|
    ensures Collect(cs, ds).Err? <==> exists i :: 0 <= i < |ds| && ds[i].Err?
    ensures Collect(cs, ds).Err? ==>
      exists i :: 0 <= i < |ds| && ds[i].Err? && Collect(cs, ds).error == ds[i].error &&
                  forall k :: 0 <= k < i ==> ds[k].Ok?
  {
    if cs != [] {
      var n := |cs| - 1;
      CollectFails(cs[..n], ds[..n]);
      assert forall i :: 0 <= i < n ==> ds[..n][i] == ds[i];
      if Collect(cs[..n], ds[..n]).Ok? && ds[n].Err? {
        assert forall k :: 0 <= k < n ==> ds[k].Ok?;
      }
    }
  }

  /** The violated positions are increasing, and they are exactly the positions
      classified with a descriptor other than the declared one. */
  lemma {:induction false} ViolatedPositionsExact(cs: seq<Constraint>, ds: seq<Result<Descriptor>>)
    requires |cs| == |ds|
    ensures var ps := ViolatedPositions(cs, ds);
      (forall k :: 0 <= k < |ps| ==> ps[k] < |cs|) &&
      (forall k, l :: 0 <= k < l < |ps| ==> ps[k] < ps[l]) &&
      (forall i :: 0 <= i < |cs| ==> (i in ps <==> ds[i].Ok? && ds[i].value != cs[i].descriptor))
  {
    if cs != [] {
      var n := |cs| - 1;
      ViolatedPositionsExact(cs[..n], ds[..n]);
      assert forall i :: 0 <= i < n ==> cs[..n][i] == cs[i] && ds[..n][i] == ds[i];
    }
  }

  /** When no classification fails, the loop returns the constraints at the
      violated positions, in that order. */
  lemma {:induction false} CollectPicks(cs: seq<Constraint>, ds: seq<Result<Descriptor>>)
    requires |cs| == |ds| && forall i :: 0 <= i < |ds| ==> ds[i].Ok?
    ensures Collect(cs, ds).Ok?
    ensures |Collect(cs, ds).value| == |ViolatedPositions(cs, ds)|
    ensures forall k :: 0 <= k < |ViolatedPositions(cs, ds)| ==>
      ViolatedPositions(cs, ds)[k] < |cs| && Collect(cs, ds).value[k] == cs[ViolatedPositions(cs, ds)[k]]
  {
    if cs != [] {
      var n := |cs| - 1;
      assert forall i :: 0 <= i < n ==> ds[..n][i] == ds[i];
      CollectPicks(cs[..n], ds[..n]);
      var ps0 := ViolatedPositions(cs[..n], ds[..n]);
      assert forall k :: 0 <= k < |ps0| ==> cs[..n][ps0[k]] == cs[ps0[k]];
    }
  }

  /** The check fails exactly when classifying some constraint fails, and then with
      the error of the first such constraint; otherwise it reports exactly the
      constraints whose exhibited descriptor differs from the declared one, in
      catalog order, and its flag says whether there are none. */
  lemma VerdictCharacterized(b: Backend, cache: map<string, Points>, cs: seq<Constraint>)
    requires Covered(cache, cs)
    ensures var ds := Classifications(b, cache, cs);
      (Verdict(b, cache, cs).Err? <==> exists i :: 0 <= i < |cs| && ds[i].Err?) &&
      (Verdict(b, cache, cs).Err? ==>
         exists i :: 0 <= i < |cs| && ds[i].Err? && Verdict(b, cache, cs).error == ds[i].error &&
                     forall k :: 0 <= k < i ==> ds[k].Ok?)
    ensures Verdict(b, cache, cs).Ok? ==>
      var (passed, v) := Verdict(b, cache, cs).value;
      var ds, ps := Classifications(b, cache, cs), ViolatedPositions(cs, Classifications(b, cache, cs));
      (passed <==> v == []) &&
      |v| == |ps| &&
      (forall k :: 0 <= k < |ps| ==> ps[k] < |cs| && v[k] == cs[ps[k]]) &&
      (forall k, l :: 0 <= k < l < |ps| ==> ps[k] < ps[l]) &&
      (forall i :: 0 <= i < |cs| ==> (i in ps <==> ds[i].value != cs[i].descriptor))
  {
    var ds := Classifications(b, cache, cs);
    assert Violations(b, cache, cs) == Collect(cs, ds);
    CollectFails(cs, ds);
    if Collect(cs, ds).Ok? {
      ViolatedPositionsExact(cs, ds);
      CollectPicks(cs, ds);
      assert Verdict(b, cache, cs).value == (|Collect(cs, ds).value| == 0, Collect(cs, ds).value);
    }
  }

  /** Every reported violation is one of the checked constraints. */
  lemma ViolationsFromChecked(b: Backend, cache: map<string, Points>, cs: seq<Constraint>)
    requires Covered(cache, cs)
    ensures Verdict(b, cache, cs).Ok? ==> forall c :: c in Verdict(b, cache, cs).value.1 ==> c in cs
  {
    VerdictCharacterized(b, cache, cs);
    var v := Verdict(b, cache, cs);
    if v.Ok? {
      var ps := ViolatedPositions(cs, Classifications(b, cache, cs));
      forall c | c in v.value.1 ensures c in cs {
        var k :| 0 <= k < |v.value.1| && v.value.1[k] == c;
        assert c == cs[ps[k]];
      }
    }
  }

  /** On a non-empty sample of NaN-free (real) derivative values, the SymPy path
      fails exactly when the constraint's name tag does not pick out one derivative
      (with pairwise distinct names: when it names neither a variable nor an ordered
      pair of variables) or when the sample's width is not the number of names. */
  lemma SymPyClassifyFails(names: seq<string>, useDisplayNames: bool, deriv: (DerivativeKey, seq<real>) -> real,
                           c: Constraint, xs: Points)
    requires |xs| > 0
    requires forall i, j :: 0 <= i < j < |names| ==> names[i] != names[j]
    ensures var ref := if useDisplayNames then c.varDisplayName else c.varName;
      (Classify(SymPy(names, useDisplayNames, deriv), c, xs).Err? <==> !Resolves(names, ref) || !Width(xs, |names|)) &&
      (!Resolves(names, ref) ==> Classify(SymPy(names, useDisplayNames, deriv), c, xs) == Err(DerivativeNotAvailable)) &&
      (Resolves(names, ref) && !Width(xs, |names|) ==>
         Classify(SymPy(names, useDisplayNames, deriv), c, xs) == Err(ArgumentCountMismatch))
  {
    var ref := if useDisplayNames then c.varDisplayName else c.varName;
    UniqueMatch(names, ref);
    if Resolves(names, ref) && Width(xs, |names|) {
      DescriptorMeaning(seq(|xs|, r requires 0 <= r < |xs| => deriv(KeyFor(ref), xs[r])));
    }
  }

  /** A constraint the two backends can both read: order 1 on a variable's name, or
      order 2 on a pair of variables' names. */
  predicate WellFormedFor(names: seq<string>, c: Constraint) {
    (c.order == 1 && c.varName.Single? && c.varName.name in names) ||
    (c.order == 2 && c.varName.List? && |c.varName.names| == 2 &&
     c.varName.names[0] in names && c.varName.names[1] in names)
  }

  /** When the SymPy derivatives and the JAX gradient and Hessian agree on every
      point, the two backends classify every well-formed constraint alike (the SymPy
      path looking up canonical names, which the JAX path always does). */
  lemma BackendsAgree(names: seq<string>, deriv: (DerivativeKey, seq<real>) -> real,
                      grad: (seq<real>, nat) -> real, hess: (seq<real>, nat, nat) -> real,
                      c: Constraint, xs: Points)
    requires forall i, j :: 0 <= i < j < |names| ==> names[i] != names[j]
    requires forall p: seq<real>, i :: 0 <= i < |names| ==> deriv(First(names[i]), p) == grad(p, i)
    requires forall p: seq<real>, i, j :: 0 <= i < |names| && 0 <= j < |names| ==>
      deriv(Second(names[i], names[j]), p) == hess(p, i, j)
    requires WellFormedFor(names, c) && Width(xs, |names|)
    ensures Classify(SymPy(names, false, deriv), c, xs) == Classify(Jax(names, grad, hess), c, xs)
  {
    UniqueMatch(names, c.varName);
    var ms := Matches(DerivativeKeys(names), c.varName);
    if c.order == 1 {
      var i := IndexOf(names, c.varName.name).value;
      assert ms[0] == First(names[i]);
      assert seq(|xs|, r requires 0 <= r < |xs| => deriv(ms[0], xs[r])) ==
             seq(|xs|, r requires 0 <= r < |xs| => grad(xs[r], i));
    } else {
      var i := IndexOf(names, c.varName.names[0]).value;
      var j := IndexOf(names, c.varName.names[1]).value;
      assert ms[0] == Second(names[i], names[j]);
      assert seq(|xs|, r requires 0 <= r < |xs| => deriv(ms[0], xs[r])) ==
             seq(|xs|, r requires 0 <= r < |xs| => hess(xs[r], i, j));
    }
  }

  /** When the derivatives agree, the two backends reach the same verdict on a whole
      list of well-formed constraints whose samples have one column per name: the
      same failure, or the same flag and the same violations in the same order. */
  lemma VerdictsAgree(names: seq<string>, deriv: (DerivativeKey, seq<real>) -> real,
                      grad: (seq<real>, nat) -> real, hess: (seq<real>, nat, nat) -> real,
                      cache: map<string, Points>, cs: seq<Constraint>)
    requires Covered(cache, cs)
    requires forall i, j :: 0 <= i < j < |names| ==> names[i] != names[j]
    requires forall p: seq<real>, i :: 0 <= i < |names| ==> deriv(First(names[i]), p) == grad(p, i)
    requires forall p: seq<real>, i, j :: 0 <= i < |names| && 0 <= j < |names| ==>
      deriv(Second(names[i], names[j]), p) == hess(p, i, j)
    requires forall c :: c in cs ==> WellFormedFor(names, c) && Width(cache[c.id], |names|)
    ensures Verdict(SymPy(names, false, deriv), cache, cs) == Verdict(Jax(names, grad, hess), cache, cs)
  {
    forall i | 0 <= i < |cs|
      ensures Classify(SymPy(names, false, deriv), cs[i], cache[cs[i].id]) ==
              Classify(Jax(names, grad, hess), cs[i], cache[cs[i].id])
    {
      assert cs[i] in cs;
      BackendsAgree(names, deriv, grad, hess, cs[i], cache[cs[i].id]);
    }
    assert Classifications(SymPy(names, false, deriv), cache, cs) == Classifications(Jax(names, grad, hess), cache, cs);
  }

  /** On a non-empty sample of NaN-free (real) derivative values the JAX path never
      meets an unforeseen sign set: it fails only on a name it cannot find or index,
      or an order other than 1 and 2. */
  lemma JaxClassifyFails(varNames: seq<string>, grad: (seq<real>, nat) -> real, hess: (seq<real>, nat, nat) -> real,
                         c: Constraint, xs: Points)
    requires |xs| > 0
    ensures Classify(Jax(varNames, grad, hess), c, xs).Err? ==>
      Classify(Jax(varNames, grad, hess), c, xs).error in {VariableNotFound, IndexOutOfRange, UnhandledOrder(c.order)}
    ensures c.order != 1 && c.order != 2 ==> Classify(Jax(varNames, grad, hess), c, xs) == Err(UnhandledOrder(c.order))
    ensures WellFormedFor(varNames, c) ==> Classify(Jax(varNames, grad, hess), c, xs).Ok?
  {
    if c.order == 1 {
      var r := match c.varName { case Single(s) => IndexOf(varNames, s) case List(_) => Err(VariableNotFound) };
      if r.Ok? {
        DescriptorMeaning(seq(|xs|, k requires 0 <= k < |xs| => grad(xs[k], r.value)));
      }
    } else if c.order == 2 {
      var v1 := Element(c.varName, 0);
      var v2 := Element(c.varName, 1);
      if v1.Ok? && v2.Ok? && IndexOf(varNames, v1.value).Ok? && IndexOf(varNames, v2.value).Ok? {
        var i, j := IndexOf(varNames, v1.value).value, IndexOf(varNames, v2.value).value;
        DescriptorMeaning(seq(|xs|, k requires 0 <= k < |xs| => hess(xs[k], i, j)));
      }
    }
  }
}

=== FILE: descriptors.dfy ===
/** The sign-pattern classifier (`get_constraint_descriptor_for_gradients`): the set
    of signs seen among sampled derivative values decides which monotonicity or
    curvature descriptor the values exhibit. */
module Descriptors {
  import opened Outcomes

  /** The constraint descriptors of the catalog; `Unknown` is the placeholder the JAX
      path starts from and never the classifier's answer. */
  datatype Descriptor = Positive | Negative | Zero | NoConstraint | Unknown

  /** `np.sign` on one value. */
  function Sign(v: real): int {
    if v > 0.0 then 1 else if v < 0.0 then -1 else 0
  }

  /** `set(np.unique(np.sign(values)))`. */
  function SignSet(values: seq<real>): set<int> {
    set i | 0 <= i < |values| :: Sign(values[i])
  }

  /** The case split on the set of signs. */
  function ClassifySigns(signs: set<int>): Result<Descriptor> {
    if signs == {-1} || signs == {-1, 0} then Ok(Negative)
    else if signs == {1} || signs == {0, 1} then Ok(Positive)
    else if signs == {-1, 1} || signs == {-1, 0, 1} then Ok(NoConstraint)
    else if signs == {0} then Ok(Zero)
    else Err(UnforeseenSignValues)
  }

  /** The descriptor the sampled values exhibit. Values are reals, so NaN, whose
      sign matches none of the handled sign sets, cannot occur: only an empty list
      fails. */
  function DescriptorForGradients(values: seq<real>): (r: Result<Descriptor>)
    ensures r.Ok? <==> |values| > 0
    ensures r != Ok(Unknown)
  {
    SignSetMembers(values);
    ClassifySignsTotal(SignSet(values));
    ClassifySigns(SignSet(values))
  }

  /** Every non-empty set of signs drawn from {-1, 0, 1} is classified, and nothing
      else is; the classifier never answers `Unknown`. */
  lemma ClassifySignsTotal(signs: set<int>)
    ensures ClassifySigns(signs).Ok? <==> signs != {} && signs <= {-1, 0, 1}
    ensures ClassifySigns(signs) != Ok(Unknown)
  {
  }

  /** Which signs occur among the values. */
  lemma SignSetMembers(values: seq<real>)
    ensures SignSet(values) <= {-1, 0, 1}
    ensures 1 in SignSet(values) <==> exists i :: 0 <= i < |values| && values[i] > 0.0
    ensures -1 in SignSet(values) <==> exists i :: 0 <= i < |values| && values[i] < 0.0
    ensures 0 in SignSet(values) <==> exists i :: 0 <= i < |values| && values[i] == 0.0
    ensures SignSet(values) == {} <==> |values| == 0
  {
    if |values| > 0 {
      assert Sign(values[0]) in SignSet(values);
    }
  }

  /** Any non-empty list of NaN-free (real) values gets a descriptor. */
  lemma NonEmptyClassified()
    ensures forall values: seq<real> :: |values| > 0 ==> DescriptorForGradients(values).Ok?
  {
  }

  /** What each answer means about the values: positive means none is negative and
      some is positive, negative the mirror image, zero that all vanish, no
      constraint that both signs occur; only an empty input is an error. */
  lemma DescriptorMeaning(values: seq<real>)
    ensures DescriptorForGradients(values).Err? <==> |values| == 0
    ensures DescriptorForGradients(values) == Ok(Positive) <==>
      (forall i :: 0 <= i < |values| ==> values[i] >= 0.0) && exists i :: 0 <= i < |values| && values[i] > 0.0
    ensures DescriptorForGradients(values) == Ok(Negative) <==>
      (forall i :: 0 <= i < |values| ==> values[i] <= 0.0) && exists i :: 0 <= i < |values| && values[i] < 0.0
    ensures DescriptorForGradients(values) == Ok(Zero) <==>
      |values| > 0 && forall i :: 0 <= i < |values| ==> values[i] == 0.0
    ensures DescriptorForGradients(values) == Ok(NoConstraint) <==>
      (exists i :: 0 <= i < |values| && values[i] > 0.0) && exists i :: 0 <= i < |values| && values[i] < 0.0
    ensures DescriptorForGradients(values) != Ok(Unknown)
  {
    var s := SignSet(values);
    SignSetMembers(values);
    ClassifySignsTotal(s);
    var n, z, p := -1 in s, 0 in s, 1 in s;
    assert s == (if n then {-1} else {}) + (if z then {0} else {}) + (if p then {1} else {});
    assert (forall i :: 0 <= i < |values| ==> values[i] >= 0.0) <==> !n by {
      if !n {
        forall i | 0 <= i < |values| ensures values[i] >= 0.0 {
          assert Sign(values[i]) in s;
        }
      }
    }
    assert (forall i :: 0 <= i < |values| ==> values[i] <= 0.0) <==> !p by {
      if !p {
        forall i | 0 <= i < |values| ensures values[i] <= 0.0 {
          assert Sign(values[i]) in s;
        }
      }
    }
    assert (forall i :: 0 <= i < |values| ==> values[i] == 0.0) <==> !n && !p by {
      if !n && !p {
        forall i | 0 <= i < |values| ensures values[i] == 0.0 {
          assert Sign(values[i]) in s;
        }
      }
    }
  }
}

=== FILE: equation.dfy ===
/** `KnownEquation`: an equation of the benchmark with one sampling objective and one
    symbol `x0, x1, ...` per input variable. */
module Equations {
  import opened Outcomes
  import opened Sampling

  // ---------------------------------------------------------------------------
  // Variable names `x{i}`

  function DigitChar(d: nat): char
    requires d < 10
  {
    ('0' as int + d) as char
  }

  /** Decimal representation of `n`, without leading zeros. */
  function NatToString(n: nat): (s: string)
    ensures 1 <= |s|
    ensures |s| == 1 <==> n < 10
    ensures forall k :: 0 <= k < |s| ==> '0' <= s[k] <= '9'
    ensures s[0] == '0' <==> n == 0
  {
    if n < 10 then [DigitChar(n)] else NatToString(n / 10) + [DigitChar(n % 10)]
  }

  /** The number a string of decimal digits denotes, most significant digit first. */
  function DigitsValue(s: string): nat
    requires forall k :: 0 <= k < |s| ==> '0' <= s[k] <= '9'
  {
    if s == [] then 0 else DigitsValue(s[..|s| - 1]) * 10 + (s[|s| - 1] as int - '0' as int)
  }

  /** Reading the rendering back gives the number: the digits are its decimal
      representation. */
  lemma {:induction false} NatToStringValue(n: nat)
    ensures DigitsValue(NatToString(n)) == n
  {
    var s := NatToString(n);
    if n >= 10 {
      NatToStringValue(n / 10);
      assert s[..|s| - 1] == NatToString(n / 10);
      assert s[|s| - 1] as int - '0' as int == n % 10;
    }
  }

  /** Different numbers render differently. */
  lemma {:induction false} NatToStringInjective(n: nat, m: nat)
    requires NatToString(n) == NatToString(m)
    ensures n == m
  {
    if n >= 10 && m >= 10 {
      var s, t := NatToString(n), NatToString(m);
      assert s[|s| - 1] == t[|t| - 1];
      assert NatToString(n / 10) == s[..|s| - 1] == t[..|t| - 1] == NatToString(m / 10);
      NatToStringInjective(n / 10, m / 10);
    }
  }

  /** The name of the `i`-th input symbol. */
  function VarName(i: nat): (name: string)
    ensures |name| >= 2 && name[0] == 'x'
  {
    "x" + NatToString(i)
  }

  /** Symbols `x{i}` are named apart. */
  lemma VarNamesDistinct(i: nat, j: nat)
    ensures VarName(i) == VarName(j) <==> i == j
  {
    if VarName(i) == VarName(j) {
      assert NatToString(i) == VarName(i)[1..] == VarName(j)[1..] == NatToString(j);
      NatToStringInjective(i, j);
    }
  }

  // ---------------------------------------------------------------------------
  // Symbols and the local dictionary

  /** A sympy `Symbol`: its name and its assumptions (`real=True`, ...). */
  datatype Symbol = Symbol(name: string, assumptions: map<string, bool>)

  /** The names of a list of symbols, in order. */
  function Names(x: seq<Symbol>): (names: seq<string>)
    ensures |names| == |x| && forall i :: 0 <= i < |x| ==> names[i] == x[i].name
  {
    if x == [] then [] else Names(x[..|x| - 1]) + [x[|x| - 1].name]
  }

  /** `{v.name: v for v in x}`: a later symbol with a name already present replaces
      the earlier entry. */
  function LocalDict(x: seq<Symbol>): (d: map<string, Symbol>)
    ensures forall k :: k in d ==> d[k].name == k
  {
    if x == [] then map[] else LocalDict(x[..|x| - 1])[x[|x| - 1].name := x[|x| - 1]]
  }

  /** The dictionary's keys are exactly the symbols' names. */
  lemma {:induction false} LocalDictKeys(x: seq<Symbol>)
    ensures LocalDict(x).Keys == set i | 0 <= i < |x| :: x[i].name
  {
    if x != [] {
      var init := x[..|x| - 1];
      LocalDictKeys(init);
      assert forall i :: 0 <= i < |init| ==> init[i] == x[i];
      assert (set i | 0 <= i < |x| :: x[i].name) == (set i | 0 <= i < |init| :: init[i].name) + {x[|x| - 1].name};
    }
  }

  /** Each symbol's name maps to that symbol unless a later symbol carries the
      same name. */
  lemma {:induction false} LocalDictLatest(x: seq<Symbol>)
    ensures forall i :: 0 <= i < |x| ==>
      x[i].name in LocalDict(x) &&
      (LocalDict(x)[x[i].name] == x[i] || exists j :: i < j < |x| && x[j].name == x[i].name)
  {
    if x != [] {
      var n := |x| - 1;
      var init := x[..n];
      LocalDictLatest(init);
      forall i | 0 <= i < n
        ensures x[i].name in LocalDict(x)
        ensures LocalDict(x)[x[i].name] == x[i] || exists j :: i < j < |x| && x[j].name == x[i].name
      {
        assert init[i] == x[i];
        if x[n].name == x[i].name {
          assert i < n < |x|;
        } else {
          assert LocalDict(x)[x[i].name] == LocalDict(init)[init[i].name];
          if LocalDict(init)[init[i].name] != init[i] {
            var j :| i < j < |init| && init[j].name == init[i].name;
            assert x[j] == init[j];
          }
        }
      }
    }
  }

  /** The headline fact about the dictionary, combining `LocalDictKeys` and
      `LocalDictLatest`: exactly the symbols' names as keys, each mapped to the last
      symbol carrying that name. */
  lemma LocalDictEntries(x: seq<Symbol>)
    ensures LocalDict(x).Keys == set i | 0 <= i < |x| :: x[i].name
    ensures forall i :: 0 <= i < |x| ==>
      LocalDict(x)[x[i].name] == x[i] || exists j :: i < j < |x| && x[j].name == x[i].name
  {
    LocalDictKeys(x);
    LocalDictLatest(x);
  }

  /** With names that are pairwise distinct every symbol is its own entry and the
      dictionary has one entry per symbol. */
  lemma LocalDictOfDistinctNames(x: seq<Symbol>)
    requires forall i, j :: 0 <= i < j < |x| ==> x[i].name != x[j].name
    ensures |LocalDict(x)| == |x|
    ensures forall i :: 0 <= i < |x| ==> x[i].name in LocalDict(x) && LocalDict(x)[x[i].name] == x[i]
  {
    LocalDictEntries(x);
    var names := Names(x);
    assert LocalDict(x).Keys == set i | 0 <= i < |x| :: names[i];
    DistinctCardinality(names);
  }

  /** A sequence without repetitions has as many distinct elements as positions. */
  lemma {:induction false} DistinctCardinality(s: seq<string>)
    requires forall i, j :: 0 <= i < j < |s| ==> s[i] != s[j]
    ensures |set i | 0 <= i < |s| :: s[i]| == |s|
  {
    if s != [] {
      var init := s[..|s| - 1];
      DistinctCardinality(init);
      assert (set i | 0 <= i < |s| :: s[i]) == (set i | 0 <= i < |init| :: init[i]) + {s[|s| - 1]};
    }
  }

  /** The keys of a dictionary built from `names` (`{c: ... for c in names}`) in
      insertion order: the first occurrence of each name. */
  function Dedup(names: seq<string>): (d: seq<string>)
    ensures forall k :: 0 <= k < |d| ==> d[k] in names
    ensures forall n :: n in names ==> n in d
    ensures forall i, j :: 0 <= i < j < |d| ==> d[i] != d[j]
  {
    if names == [] then []
    else
      var init := Dedup(names[..|names| - 1]);
      var last := names[|names| - 1];
      if last in init then init else init + [last]
  }

  // ---------------------------------------------------------------------------
  // Domain range fold

  /** The running `(min_value, max_value)` of `get_domain_range`, with its `elif`:
      a later objective whose minimum is smaller updates only the minimum. */
  function RangeFoldAsWritten(objs: seq<SamplingObjective>): (r: Result<(real, real)>)
    ensures r.Err? <==> objs == []
  {
    if objs == [] then Err(EmptyDomain)
    else if |objs| == 1 then Ok((objs[0].minValue, objs[0].maxValue))
    else
      var (lo, hi) := RangeFoldAsWritten(objs[..|objs| - 1]).value;
      var o := objs[|objs| - 1];
      if o.minValue < lo then Ok((o.minValue, hi))
      else if o.maxValue > hi then Ok((lo, o.maxValue))
      else Ok((lo, hi))
  }

  /** The same fold with the two updates independent of each other. */
  function RangeFold(objs: seq<SamplingObjective>): (r: Result<(real, real)>)
    ensures r.Err? <==> objs == []
  {
    if objs == [] then Err(EmptyDomain)
    else if |objs| == 1 then Ok((objs[0].minValue, objs[0].maxValue))
    else
      var (lo, hi) := RangeFold(objs[..|objs| - 1]).value;
      var o := objs[|objs| - 1];
      Ok((if o.minValue < lo then o.minValue else lo, if o.maxValue > hi then o.maxValue else hi))
  }

  /** The fold as written finds the smallest minimum, but its maximum is only some
      objective's maximum, no larger than the largest. */
  lemma {:induction false} RangeFoldAsWrittenBounds(objs: seq<SamplingObjective>)
    ensures RangeFoldAsWritten(objs).Err? <==> objs == []
    ensures RangeFoldAsWritten(objs).Ok? ==>
      var (lo, hi) := RangeFoldAsWritten(objs).value;
      objs != [] &&
      (forall i :: 0 <= i < |objs| ==> lo <= objs[i].minValue) &&
      (exists i :: 0 <= i < |objs| && lo == objs[i].minValue) &&
      (exists i :: 0 <= i < |objs| && hi == objs[i].maxValue) &&
      hi <= MaxOfMaxima(objs)
  {
    if |objs| > 1 {
      var init := objs[..|objs| - 1];
      RangeFoldAsWrittenBounds(init);
      MaxOfMaximaBound(init);
      MaxOfMaximaBound(objs);
      var (lo, hi) := RangeFoldAsWritten(init).value;
      var o := objs[|objs| - 1];
      assert forall i :: 0 <= i < |init| ==> init[i] == objs[i];
      var li :| 0 <= li < |init| && lo == init[li].minValue;
      var hj :| 0 <= hj < |init| && hi == init[hj].maxValue;
      assert lo == objs[li].minValue && hi == objs[hj].maxValue;
    } else if |objs| == 1 {
      MaxOfMaximaBound(objs);
    }
  }

  /** The largest maximum among the objectives. */
  function MaxOfMaxima(objs: seq<SamplingObjective>): real
    requires objs != []
  {
    if |objs| == 1 then objs[0].maxValue
    else
      var m := MaxOfMaxima(objs[..|objs| - 1]);
      if objs[|objs| - 1].maxValue > m then objs[|objs| - 1].maxValue else m
  }

  lemma {:induction false} MaxOfMaximaBound(objs: seq<SamplingObjective>)
    requires objs != []
    ensures forall i :: 0 <= i < |objs| ==> objs[i].maxValue <= MaxOfMaxima(objs)
    ensures exists i :: 0 <= i < |objs| && objs[i].maxValue == MaxOfMaxima(objs)
  {
    if |objs| > 1 {
      var init := objs[..|objs| - 1];
      MaxOfMaximaBound(init);
      assert forall i :: 0 <= i < |init| ==> init[i] == objs[i];
      var j :| 0 <= j < |init| && init[j].maxValue == MaxOfMaxima(init);
      if objs[|objs| - 1].maxValue <= MaxOfMaxima(init) {
        assert objs[j].maxValue == MaxOfMaxima(objs);
      } else {
        assert objs[|objs| - 1].maxValue == MaxOfMaxima(objs);
      }
    } else {
      assert objs[0].maxValue == MaxOfMaxima(objs);
    }
  }

  /** The corrected fold computes the smallest minimum and the largest maximum. */
  lemma {:induction false} RangeFoldIsMinMax(objs: seq<SamplingObjective>)
    ensures RangeFold(objs).Err? <==> objs == []
    ensures RangeFold(objs).Ok? ==>
      var (lo, hi) := RangeFold(objs).value;
      (forall i :: 0 <= i < |objs| ==> lo <= objs[i].minValue && objs[i].maxValue <= hi) &&
      (exists i :: 0 <= i < |objs| && lo == objs[i].minValue) &&
      (exists i :: 0 <= i < |objs| && hi == objs[i].maxValue)
  {
    if |objs| > 1 {
      var init := objs[..|objs| - 1];
      RangeFoldIsMinMax(init);
      var (lo, hi) := RangeFold(init).value;
      assert forall i :: 0 <= i < |init| ==> init[i] == objs[i];
      var li :| 0 <= li < |init| && lo == init[li].minValue;
      var hj :| 0 <= hj < |init| && hi == init[hj].maxValue;
      assert lo == objs[li].minValue && hi == objs[hj].maxValue;
    }
  }

  /** Two objectives on which the fold as written misses the larger maximum: the
      second lowers the minimum, so its maximum of 100 is never looked at. */
  lemma RangeFoldAsWrittenMissesMaximum()
    ensures var objs := [SamplingObjective(1.0, 2.0, (r, c, k) => 1.0),
                         SamplingObjective(0.0, 100.0, (r, c, k) => 0.0)];
      RangeFoldAsWritten(objs) == Ok((0.0, 2.0)) &&
      RangeFold(objs) == Ok((0.0, 100.0))
  {
  }

  // ---------------------------------------------------------------------------
  // The equation

  class KnownEquation {
    const samplingObjs: seq<SamplingObjective>
    const x: seq<Symbol>
    /** `eq_func`, applied to one point. */
    const eqFunc: seq<real> -> real
    /** `check_if_valid` on one output value. */
    const checkIfValid: real -> bool

    /** One symbol per sampling objective, the `i`-th named `x{i}`. */
    ghost predicate Valid() {
      |x| == |samplingObjs| &&
      forall i :: 0 <= i < |x| ==> x[i].name == VarName(i)
    }

    /** `kwargs_list` defaults to `{'real': True}` for every variable. */
    constructor (numVars: nat, samplingObjs: seq<SamplingObjective>, kwargsList: Option<seq<map<string, bool>>>,
                 eqFunc: seq<real> -> real, checkIfValid: real -> bool)
      requires |samplingObjs| == numVars
      requires kwargsList.Some? ==> |kwargsList.value| == numVars
      ensures Valid()
      ensures this.samplingObjs == samplingObjs && this.eqFunc == eqFunc && this.checkIfValid == checkIfValid
      ensures forall i :: 0 <= i < numVars ==>
        x[i].assumptions == (if kwargsList.Some? then kwargsList.value[i] else map["real" := true])
    {
      this.samplingObjs := samplingObjs;
      this.eqFunc := eqFunc;
      this.checkIfValid := checkIfValid;
      var kwargs := if kwargsList.Some? then kwargsList.value else seq(numVars, _ => map["real" := true]);
      this.x := seq(numVars, i requires 0 <= i < numVars => Symbol(VarName(i), kwargs[i]));
    }

    /** `len(self.x)`: one per sampling objective. */
    function GetVarCount(): (n: nat)
      requires Valid()
      ensures n == |samplingObjs|
    {
      |x|
    }

    /** The symbols' names, in order: `x0, x1, ...`. */
    function VarNames(): (names: seq<string>)
      requires Valid()
      ensures |names| == GetVarCount()
      ensures forall i :: 0 <= i < |names| ==> names[i] == VarName(i)
      ensures forall i, j :: 0 <= i < j < |names| ==> names[i] != names[j]
    {
      VarNamesApart();
      Names(x)
    }

    lemma VarNamesApart()
      requires Valid()
      ensures forall i, j :: 0 <= i < j < |x| ==> x[i].name != x[j].name
    {
      forall i, j | 0 <= i < j < |x|
        ensures x[i].name != x[j].name
      {
        VarNamesDistinct(i, j);
      }
    }

    /** `get_sympy_eq_local_dict`: every symbol under its own name, nothing else. */
    function GetSympyEqLocalDict(): (d: map<string, Symbol>)
      requires Valid()
      ensures |d| == GetVarCount()
      ensures d.Keys == set i | 0 <= i < GetVarCount() :: VarName(i)
      ensures forall i :: 0 <= i < GetVarCount() ==> d[VarName(i)] == x[i]
    {
      VarNamesApart();
      LocalDictEntries(x);
      LocalDictOfDistinctNames(x);
      LocalDict(x)
    }

    /** `get_domain_range` up to its final `abs(log10(abs(max - min)))`: the running
        minimum and maximum over the objectives, as the loop computes them. */
    method GetDomainRange() returns (r: Result<(real, real)>)
      ensures r == RangeFoldAsWritten(samplingObjs)
    {
      if |samplingObjs| == 0 {
        return Err(EmptyDomain);
      }
      var minValue, maxValue := samplingObjs[0].minValue, samplingObjs[0].maxValue;
      var i := 1;
      while i < |samplingObjs|
        invariant 1 <= i <= |samplingObjs|
        invariant RangeFoldAsWritten(samplingObjs[..i]) == Ok((minValue, maxValue))
      {
        assert samplingObjs[..i + 1][..i] == samplingObjs[..i];
        var o := samplingObjs[i];
        if o.minValue < minValue {
          minValue := o.minValue;
        } else if o.maxValue > maxValue {
          maxValue := o.maxValue;
        }
        i := i + 1;
      }
      assert samplingObjs[..i] == samplingObjs;
      return Ok((minValue, maxValue));
    }

    /** The generation request this equation hands to the dataset generator. */
    function GenerationRequest(sampleSize: nat): Request {
      Request(samplingObjs, eqFunc, checkIfValid, sampleSize)
    }

    /** `create_dataset`: rows of `x0, ..., x{n-1}, y`. */
    method CreateDataset(sampleSize: nat, patience: nat) returns (r: Result<Table>)
      requires Valid()
      ensures r == Generate(GenerationRequest(sampleSize), patience)
      ensures r.Ok? ==> |r.value| == sampleSize
      ensures r.Ok? ==> forall row :: row in r.value ==>
        |row| == GetVarCount() + 1 && SoundRow(GenerationRequest(sampleSize), row)
    {
      r := CreateDatasetFromSamplingObjectives(GenerationRequest(sampleSize), patience);
    }
  }
}

=== FILE: outcomes.dfy ===
/** Failure-compatible result type shared by every module, and the error
    conditions that the benchmark code raises. */
module Outcomes {

  /** Every way the modelled operations abort. */
  datatype Error =
    | NoSamplingObjectives                 // `assert len(sampling_objs) > 0`
    | SamplingExhausted(validCount: nat)   // TimeoutError after `patience` rounds
    | EmptyDomain                          // `max_value - min_value` on None
    | UnforeseenSignValues                 // sign set outside the recognised patterns
    | UnsupportedLibrary(library: string)  // RuntimeError in the dispatcher
    | DerivativesNotUniquelyNamed          // more than one derivative matched
    | DerivativeNotAvailable               // no derivative matched
    | UnhandledOrder(order: int)           // JAX path: order other than 1 or 2
    | VariableNotFound                     // `list.index` found nothing (ValueError)
    | IndexOutOfRange                      // `ref[0]` / `ref[1]` past the end (IndexError)
    | NoiseLevelOutOfRange                 // `assert 0 <= noise_level <= 1`
    | ArgumentCountMismatch                // lambdified derivative called with another arity (TypeError)

  datatype Option<+T> = None | Some(value: T)

  datatype Result<+T> = Ok(value: T) | Err(error: Error) {

    predicate IsFailure() {
      Err?
    }

    function PropagateFailure<U>(): Result<U>
      requires Err?
    {
      Err(error)
    }

    function Extract(): T
      requires Ok?
    {
      value
    }
  }
}

=== FILE: sampling.dfy ===
/** Rejection-sampling dataset generator (`create_dataset_from_sampling_objectives`).

    Every input variable has a sampling objective; a draw asks each objective for
    the same number of values (one column per variable), evaluates the equation on
    every point, and keeps the points whose output passes the validity predicate.
    Randomness, the vectorised equation and the floating-point validity test are
    oracles carried in a `Request`. */
module Sampling {
  import opened Outcomes

  /** One input variable's sampler: its declared bounds and the values it returns.
      `sample(round, count, k)` is the k-th of the `count` values returned by the call
      made in draw `round` (round 0 is the first draw, round i the i-th retry). */
  datatype SamplingObjective = SamplingObjective(minValue: real, maxValue: real, sample: (nat, nat, nat) -> real)

  /** A dataset: one row per sample, the inputs followed by the output. */
  type Table = seq<seq<real>>

  /** Everything one generation depends on: the objectives, the equation evaluated at
      one point, the validity predicate on outputs, and the number of rows wanted. */
  datatype Request = Request(
    objs: seq<SamplingObjective>,
    eqFunc: seq<real> -> real,
    checkIfValid: real -> bool,
    sampleSize: nat)

  // ---------------------------------------------------------------------------
  // Boolean-mask selection (`x[flags]`) and `sum(flags)`

  /** The elements of `s` whose flag is set, in order. */
  function Filter<T>(s: seq<T>, flags: seq<bool>): seq<T>
    requires |s| == |flags|
  {
    if s == [] then [] else (if flags[0] then [s[0]] else []) + Filter(s[1..], flags[1..])
  }

  /** The positions whose flag is set, in increasing order. */
  function Kept(flags: seq<bool>): (ks: seq<nat>)
    ensures forall i :: 0 <= i < |ks| ==> ks[i] < |flags| && flags[ks[i]]
  {
    if flags == [] then []
    else
      var rest := Kept(flags[1..]);
      (if flags[0] then [0] else []) + seq(|rest|, i requires 0 <= i < |rest| => rest[i] + 1)
  }

  /** Number of set flags. */
  function CountTrue(flags: seq<bool>): (n: nat)
    ensures n <= |flags|
    ensures n == |flags| <==> forall k :: 0 <= k < |flags| ==> flags[k]
  {
    if flags == [] then 0 else (if flags[0] then 1 else 0) + CountTrue(flags[1..])
  }

  /** Selecting with a mask picks exactly the flagged positions, and as many of them
      as `sum(flags)` counts. */
  lemma {:induction false} FilterAt<T>(s: seq<T>, flags: seq<bool>)
    requires |s| == |flags|
    ensures |Filter(s, flags)| == |Kept(flags)| == CountTrue(flags)
    ensures forall i :: 0 <= i < |Kept(flags)| ==> Filter(s, flags)[i] == s[Kept(flags)[i]]
  {
    if s != [] {
      FilterAt(s[1..], flags[1..]);
      var rest := Kept(flags[1..]);
      var tail := Filter(s[1..], flags[1..]);
      assert Filter(s, flags) == (if flags[0] then [s[0]] else []) + tail;
      forall i | 0 <= i < |Kept(flags)|
        ensures Filter(s, flags)[i] == s[Kept(flags)[i]]
      {
        if !flags[0] || i > 0 {
          var i' := if flags[0] then i - 1 else i;
          assert Kept(flags)[i] == rest[i'] + 1;
          assert Filter(s, flags)[i] == tail[i'];
        }
      }
    }
  }

  /** An all-true mask keeps everything. */
  lemma {:induction false} FilterAllTrue<T>(s: seq<T>, flags: seq<bool>)
    requires |s| == |flags| && forall k :: 0 <= k < |flags| ==> flags[k]
    ensures Filter(s, flags) == s
  {
    if s != [] {
      FilterAllTrue(s[1..], flags[1..]);
    }
  }

  // ---------------------------------------------------------------------------
  // Columns, points and rows

  /** Every column holds exactly `n` values. */
  predicate Rect(xs: seq<seq<real>>, n: nat) {
    forall j :: 0 <= j < |xs| ==> |xs[j]| == n
  }

  /** The `k`-th point: the `k`-th value of every column. */
  function Point(xs: seq<seq<real>>, k: nat): seq<real>
    requires forall j :: 0 <= j < |xs| ==> k < |xs[j]|
  {
    seq(|xs|, j requires 0 <= j < |xs| => xs[j][k])
  }

  /** `np.array([*xs, y]).T`: row k is the k-th point followed by the k-th output. */
  function Rows(xs: seq<seq<real>>, y: seq<real>): Table
    requires Rect(xs, |y|)
  {
    seq(|y|, k requires 0 <= k < |y| => Point(xs, k) + [y[k]])
  }

  /** `eq_func(xs)`: the equation applied point by point. */
  function Evaluate(eqFunc: seq<real> -> real, xs: seq<seq<real>>, n: nat): seq<real>
    requires Rect(xs, n)
  {
    seq(n, k requires 0 <= k < n => eqFunc(Point(xs, k)))
  }

  /** `check_if_valid(y)`: the validity predicate applied elementwise. */
  function Flags(checkIfValid: real -> bool, y: seq<real>): seq<bool> {
    seq(|y|, k requires 0 <= k < |y| => checkIfValid(y[k]))
  }

  /** `[x[flags] for x in xs]`: one mask applied to every column. */
  function FilterColumns(xs: seq<seq<real>>, flags: seq<bool>): seq<seq<real>>
    requires Rect(xs, |flags|)
  {
    seq(|xs|, j requires 0 <= j < |xs| => Filter(xs[j], flags))
  }

  /** `[np.concatenate([a[i], b[i]]) for i ...]`: columnwise concatenation. */
  function ConcatColumns(a: seq<seq<real>>, b: seq<seq<real>>): seq<seq<real>>
    requires |a| == |b|
  {
    seq(|a|, j requires 0 <= j < |a| => a[j] + b[j])
  }

  /** `[x[:n] for x in xs]`. */
  function TruncateColumns(xs: seq<seq<real>>, n: nat): seq<seq<real>>
    requires forall j :: 0 <= j < |xs| ==> n <= |xs[j]|
  {
    seq(|xs|, j requires 0 <= j < |xs| => xs[j][..n])
  }

  /** Filtering every column and the outputs with the same mask keeps each
      surviving input next to the output computed for it. */
  lemma RowsOfFilteredColumns(xs: seq<seq<real>>, y: seq<real>, flags: seq<bool>)
    requires Rect(xs, |y|) && |flags| == |y|
    ensures Rect(FilterColumns(xs, flags), |Filter(y, flags)|)
    ensures Rows(FilterColumns(xs, flags), Filter(y, flags)) == Filter(Rows(xs, y), flags)
  {
    var ks := Kept(flags);
    var fc := FilterColumns(xs, flags);
    FilterAt(y, flags);
    FilterAt(Rows(xs, y), flags);
    forall j | 0 <= j < |xs|
      ensures |fc[j]| == |ks| && forall i :: 0 <= i < |ks| ==> fc[j][i] == xs[j][ks[i]]
    {
      FilterAt(xs[j], flags);
    }
    forall i | 0 <= i < |ks|
      ensures Rows(fc, Filter(y, flags))[i] == Filter(Rows(xs, y), flags)[i]
    {
      assert Point(fc, i) == Point(xs, ks[i]);
    }
  }

  /** Concatenating columns concatenates the tables they stand for. */
  lemma RowsOfConcatenatedColumns(a: seq<seq<real>>, ya: seq<real>, b: seq<seq<real>>, yb: seq<real>)
    requires |a| == |b| && Rect(a, |ya|) && Rect(b, |yb|)
    ensures Rect(ConcatColumns(a, b), |ya + yb|)
    ensures Rows(ConcatColumns(a, b), ya + yb) == Rows(a, ya) + Rows(b, yb)
  {
    var c := ConcatColumns(a, b);
    forall k | 0 <= k < |ya + yb|
      ensures Rows(c, ya + yb)[k] == (Rows(a, ya) + Rows(b, yb))[k]
    {
      if k < |ya| {
        assert Point(c, k) == Point(a, k);
      } else {
        assert Point(c, k) == Point(b, k - |ya|);
      }
    }
  }

  /** Truncating every column and the outputs truncates the table. */
  lemma RowsOfTruncatedColumns(xs: seq<seq<real>>, y: seq<real>, n: nat)
    requires Rect(xs, |y|) && n <= |y|
    ensures Rect(TruncateColumns(xs, n), n)
    ensures Rows(TruncateColumns(xs, n), y[..n]) == Rows(xs, y)[..n]
  {
    var t := TruncateColumns(xs, n);
    forall k | 0 <= k < n
      ensures Rows(t, y[..n])[k] == Rows(xs, y)[k]
    {
      assert Point(t, k) == Point(xs, k);
    }
  }

  // ---------------------------------------------------------------------------
  // The draws of one generation

  /** The columns of a draw: one call per objective, each asking for `count` values. */
  function Draw(q: Request, round: nat, count: nat): (xs: seq<seq<real>>)
    ensures |xs| == |q.objs| && Rect(xs, count)
  {
    seq(|q.objs|, j requires 0 <= j < |q.objs| =>
      seq(count, k requires 0 <= k < count => q.objs[j].sample(round, count, k)))
  }

  function Outputs(q: Request, round: nat, count: nat): seq<real> {
    Evaluate(q.eqFunc, Draw(q, round, count), count)
  }

  function DrawFlags(q: Request, round: nat, count: nat): seq<bool> {
    Flags(q.checkIfValid, Outputs(q, round, count))
  }

  /** The whole table of a draw, valid or not. */
  function DrawTable(q: Request, round: nat, count: nat): Table {
    Rows(Draw(q, round, count), Outputs(q, round, count))
  }

  /** The rows of a draw that pass the validity predicate, in draw order. */
  function ValidDrawRows(q: Request, round: nat, count: nat): Table {
    Filter(DrawTable(q, round, count), DrawFlags(q, round, count))
  }

  /** `valid_sample_size` after the first draw. */
  function FirstValidCount(q: Request): nat {
    CountTrue(DrawFlags(q, 0, q.sampleSize))
  }

  /** `missed_sample_size`: computed once, after the first draw. */
  function Missed(q: Request): nat {
    q.sampleSize - FirstValidCount(q)
  }

  /** Every retry round asks each objective for five times the first shortfall. */
  function RetrySize(q: Request): nat {
    5 * Missed(q)
  }

  /** The number of values each objective is asked for in `round`. */
  function RoundSize(q: Request, round: nat): nat {
    if round == 0 then q.sampleSize else RetrySize(q)
  }

  /** The valid rows each round contributes. */
  function RoundRows(q: Request): nat -> Table {
    (round: nat) => ValidDrawRows(q, round, RoundSize(q, round))
  }

  /** `valid_y` after round `i` (round 0 is the first draw), given the valid rows of
      every round: the newest round's rows come first. */
  function Accumulate(rounds: nat -> Table, i: nat): Table {
    if i == 0 then rounds(0) else rounds(i) + Accumulate(rounds, i - 1)
  }

  /** Retry rounds `i..patience`, when every earlier round fell short of `sampleSize`. */
  function Retry(rounds: nat -> Table, sampleSize: nat, patience: nat, i: nat): Result<Table>
    requires 1 <= i
    decreases patience + 1 - i
  {
    if i > patience then Err(SamplingExhausted(|Accumulate(rounds, patience)|))
    else if |Accumulate(rounds, i)| >= sampleSize then Ok(Accumulate(rounds, i)[..sampleSize])
    else Retry(rounds, sampleSize, patience, i + 1)
  }

  /** What `create_dataset_from_sampling_objectives` returns or raises. */
  function Generate(q: Request, patience: nat): Result<Table> {
    if |q.objs| == 0 then Err(NoSamplingObjectives)
    else if FirstValidCount(q) == q.sampleSize then Ok(DrawTable(q, 0, q.sampleSize))
    else Retry(RoundRows(q), q.sampleSize, patience, 1)
  }

  // ---------------------------------------------------------------------------
  // The generator

  /** A row of a generated table: the inputs of one point, followed by the equation's
      output at exactly that point, which passes the validity predicate. */
  ghost predicate SoundRow(q: Request, row: seq<real>) {
    |row| == |q.objs| + 1 &&
    row[|q.objs|] == q.eqFunc(row[..|q.objs|]) &&
    q.checkIfValid(row[|q.objs|])
  }

  /** The rejection-sampling loop, over columns as the source keeps them. */
  method CreateDatasetFromSamplingObjectives(q: Request, patience: nat) returns (r: Result<Table>)
    ensures r == Generate(q, patience)
    ensures r.Ok? ==> |r.value| == q.sampleSize && forall row :: row in r.value ==> SoundRow(q, row)
  {
    GenerateSound(q, patience);
    var m := |q.objs|;
    if m == 0 {
      return Err(NoSamplingObjectives);
    }
    var xs := Draw(q, 0, q.sampleSize);
    var y := Evaluate(q.eqFunc, xs, q.sampleSize);
    var flags := Flags(q.checkIfValid, y);
    var validSampleSize := CountTrue(flags);
    if validSampleSize == q.sampleSize {
      return Ok(Rows(xs, y));
    }
    var validXs := FilterColumns(xs, flags);
    var validY := Filter(y, flags);
    RowsOfFilteredColumns(xs, y, flags);
    assert Rows(validXs, validY) == Accumulate(RoundRows(q), 0);
    var missedSampleSize := q.sampleSize - validSampleSize;
    assert Generate(q, patience) == Retry(RoundRows(q), q.sampleSize, patience, 1);
    r := RetryRounds(q, patience, validXs, validY, missedSampleSize);
  }

  /** The `for i in range(patience)` loop: each round draws `5 * missed` values per
      objective, prepends the valid ones to those kept so far, and stops as soon as
      there are enough. */
  method RetryRounds(q: Request, patience: nat, validXs0: seq<seq<real>>, validY0: seq<real>, missedSampleSize: nat)
    returns (r: Result<Table>)
    requires missedSampleSize == Missed(q)
    requires |validXs0| == |q.objs| && Rect(validXs0, |validY0|)
    requires Rows(validXs0, validY0) == Accumulate(RoundRows(q), 0)
    ensures r == Retry(RoundRows(q), q.sampleSize, patience, 1)
  {
    var validXs, validY := validXs0, validY0;
    var i := 0;
    while i < patience
      invariant 0 <= i <= patience
      invariant |validXs| == |q.objs| && Rect(validXs, |validY|)
      invariant Rows(validXs, validY) == Accumulate(RoundRows(q), i)
      invariant i < FirstSufficientRound(RoundRows(q), q.sampleSize, patience, 1)
    {
      validXs, validY := RetryRound(q, i + 1, missedSampleSize, validXs, validY);
      var validSampleSize := |validY|;
      RetryReaches(RoundRows(q), q.sampleSize, patience, i);
      if validSampleSize >= q.sampleSize {
        RowsOfTruncatedColumns(validXs, validY, q.sampleSize);
        return Ok(Rows(TruncateColumns(validXs, q.sampleSize), validY[..q.sampleSize]));
      }
      i := i + 1;
    }
    RetryExhausted(RoundRows(q), q.sampleSize, patience);
    return Err(SamplingExhausted(|validY|));
  }

  /** The body of one retry round: draw `5 * missed` values per objective, evaluate,
      and prepend the valid draws to the columns kept so far. */
  method RetryRound(q: Request, round: nat, missedSampleSize: nat, validXs: seq<seq<real>>, validY: seq<real>)
    returns (validXs': seq<seq<real>>, validY': seq<real>)
    requires 1 <= round && missedSampleSize == Missed(q)
    requires |validXs| == |q.objs| && Rect(validXs, |validY|)
    requires Rows(validXs, validY) == Accumulate(RoundRows(q), round - 1)
    ensures |validXs'| == |q.objs| && Rect(validXs', |validY'|)
    ensures Rows(validXs', validY') == Accumulate(RoundRows(q), round)
  {
    var xs := Draw(q, round, missedSampleSize * 5);
    var y := Evaluate(q.eqFunc, xs, missedSampleSize * 5);
    var flags := Flags(q.checkIfValid, y);
    RetryRoundColumns(q, round, validXs, validY);
    validXs' := ConcatColumns(FilterColumns(xs, flags), validXs);
    validY' := Filter(y, flags) + validY;
  }

  /** One retry round, done on columns, prepends that round's valid rows to the
      table the earlier rounds accumulated. */
  lemma RetryRoundColumns(q: Request, round: nat, validXs: seq<seq<real>>, validY: seq<real>)
    requires 1 <= round && |validXs| == |q.objs| && Rect(validXs, |validY|)
    requires Rows(validXs, validY) == Accumulate(RoundRows(q), round - 1)
    ensures var flags := DrawFlags(q, round, RetrySize(q));
      var fc := FilterColumns(Draw(q, round, RetrySize(q)), flags);
      var fy := Filter(Outputs(q, round, RetrySize(q)), flags);
      |ConcatColumns(fc, validXs)| == |q.objs| &&
      Rect(ConcatColumns(fc, validXs), |fy + validY|) &&
      Rows(ConcatColumns(fc, validXs), fy + validY) == Accumulate(RoundRows(q), round)
  {
    var xs := Draw(q, round, RetrySize(q));
    var y := Outputs(q, round, RetrySize(q));
    var flags := DrawFlags(q, round, RetrySize(q));
    RowsOfFilteredColumns(xs, y, flags);
    RowsOfConcatenatedColumns(FilterColumns(xs, flags), Filter(y, flags), validXs, validY);
    assert Filter(Rows(xs, y), flags) == RoundRows(q)(round);
  }

  // ---------------------------------------------------------------------------
  // Accumulation and retries, for any rows per round

  /** Rows kept from round `j` or earlier stay, unchanged and in order, behind every
      row added by a later round. */
  lemma {:induction false} AccumulationOrder(rounds: nat -> Table, i: nat, j: nat)
    requires j <= i
    ensures |Accumulate(rounds, j)| <= |Accumulate(rounds, i)|
    ensures Accumulate(rounds, i)[|Accumulate(rounds, i)| - |Accumulate(rounds, j)|..] == Accumulate(rounds, j)
  {
    if j < i {
      AccumulationOrder(rounds, i - 1, j);
      var a := Accumulate(rounds, i - 1);
      var old' := Accumulate(rounds, j);
      assert Accumulate(rounds, i) == rounds(i) + a;
      assert (rounds(i) + a)[|rounds(i) + a| - |old'|..] == a[|a| - |old'|..];
    }
  }

  /** Every accumulated row is a row of one of the rounds so far. */
  lemma {:induction false} AccumulatedFrom(rounds: nat -> Table, i: nat, row: seq<real>)
    requires row in Accumulate(rounds, i)
    ensures exists r :: 0 <= r <= i && row in rounds(r)
  {
    if i > 0 && row !in rounds(i) {
      AccumulatedFrom(rounds, i - 1, row);
    }
  }

  /** Round `i + 1` either is the first to bring the accumulation up to `n`, and
      retrying returns its first `n` rows, or falls short like every round before it. */
  lemma RetryReaches(rounds: nat -> Table, n: nat, patience: nat, i: nat)
    requires i < patience && i < FirstSufficientRound(rounds, n, patience, 1)
    ensures |Accumulate(rounds, i + 1)| >= n ==> Retry(rounds, n, patience, 1) == Ok(Accumulate(rounds, i + 1)[..n])
    ensures |Accumulate(rounds, i + 1)| < n ==> i + 1 < FirstSufficientRound(rounds, n, patience, 1)
  {
    RetryAtFirstSufficientRound(rounds, n, patience, 1);
  }

  /** When no round up to `patience` suffices, retrying reports the rows it kept. */
  lemma RetryExhausted(rounds: nat -> Table, n: nat, patience: nat)
    requires patience < FirstSufficientRound(rounds, n, patience, 1)
    ensures Retry(rounds, n, patience, 1) == Err(SamplingExhausted(|Accumulate(rounds, patience)|))
  {
    RetryAtFirstSufficientRound(rounds, n, patience, 1);
    RetryFails(rounds, n, patience, 1);
  }

  lemma {:induction false} RetryFails(rounds: nat -> Table, n: nat, patience: nat, i: nat)
    requires 1 <= i
    ensures Retry(rounds, n, patience, i).Err? <==> forall k :: i <= k <= patience ==> |Accumulate(rounds, k)| < n
    ensures Retry(rounds, n, patience, i).Err? ==>
      Retry(rounds, n, patience, i).error == SamplingExhausted(|Accumulate(rounds, patience)|)
    decreases patience + 1 - i
  {
    if i <= patience && |Accumulate(rounds, i)| < n {
      assert Retry(rounds, n, patience, i) == Retry(rounds, n, patience, i + 1);
      RetryFails(rounds, n, patience, i + 1);
      assert (forall k :: i <= k <= patience ==> |Accumulate(rounds, k)| < n) <==>
             (forall k :: i + 1 <= k <= patience ==> |Accumulate(rounds, k)| < n);
    } else if i <= patience {
      assert Retry(rounds, n, patience, i).Ok?;
      assert !(|Accumulate(rounds, i)| < n);
    } else {
      assert Retry(rounds, n, patience, i).Err?;
    }
  }

  /** The first round from `i` on whose accumulation reaches `n` rows, or a round
      past `patience` when none does. */
  function FirstSufficientRound(rounds: nat -> Table, n: nat, patience: nat, i: nat): (k: nat)
    requires 1 <= i
    ensures i <= k
    decreases patience + 1 - i
  {
    if i > patience || |Accumulate(rounds, i)| >= n then i
    else FirstSufficientRound(rounds, n, patience, i + 1)
  }

  lemma {:induction false} RetryAtFirstSufficientRound(rounds: nat -> Table, n: nat, patience: nat, i: nat)
    requires 1 <= i <= patience + 1
    ensures i <= FirstSufficientRound(rounds, n, patience, i) <= patience + 1
    ensures forall l :: i <= l < FirstSufficientRound(rounds, n, patience, i) ==> |Accumulate(rounds, l)| < n
    ensures FirstSufficientRound(rounds, n, patience, i) <= patience ==>
      |Accumulate(rounds, FirstSufficientRound(rounds, n, patience, i))| >= n &&
      Retry(rounds, n, patience, i) == Ok(Accumulate(rounds, FirstSufficientRound(rounds, n, patience, i))[..n])
    decreases patience + 1 - i
  {
    if i <= patience && |Accumulate(rounds, i)| < n {
      assert Retry(rounds, n, patience, i) == Retry(rounds, n, patience, i + 1);
      RetryAtFirstSufficientRound(rounds, n, patience, i + 1);
    }
  }

  lemma {:induction false} SameAccumulate(rounds: nat -> Table, rounds': nat -> Table, i: nat)
    requires forall r :: 0 <= r <= i ==> rounds(r) == rounds'(r)
    ensures Accumulate(rounds, i) == Accumulate(rounds', i)
  {
    if i > 0 {
      SameAccumulate(rounds, rounds', i - 1);
    }
  }

  lemma {:induction false} SameRetry(rounds: nat -> Table, rounds': nat -> Table, n: nat, patience: nat, i: nat)
    requires 1 <= i
    requires forall r :: 0 <= r <= patience ==> rounds(r) == rounds'(r)
    ensures Retry(rounds, n, patience, i) == Retry(rounds', n, patience, i)
    decreases patience + 1 - i
  {
    SameAccumulate(rounds, rounds', patience);
    if i <= patience {
      SameAccumulate(rounds, rounds', i);
      SameRetry(rounds, rounds', n, patience, i + 1);
    }
  }

  // ---------------------------------------------------------------------------
  // Properties of the generator

  /** Every valid row of a draw is a sound row. */
  lemma ValidDrawRowsSound(q: Request, round: nat, count: nat)
    ensures forall row :: row in ValidDrawRows(q, round, count) ==> SoundRow(q, row)
  {
    var t := DrawTable(q, round, count);
    var flags := DrawFlags(q, round, count);
    FilterAt(t, flags);
    forall row | row in ValidDrawRows(q, round, count)
      ensures SoundRow(q, row)
    {
      var i :| 0 <= i < |ValidDrawRows(q, round, count)| && ValidDrawRows(q, round, count)[i] == row;
      var k := Kept(flags)[i];
      assert row == Point(Draw(q, round, count), k) + [Outputs(q, round, count)[k]];
      assert row[..|q.objs|] == Point(Draw(q, round, count), k);
    }
  }

  /** Every accumulated row is a sound row. */
  lemma AccumulatedSound(q: Request, i: nat)
    ensures forall row :: row in Accumulate(RoundRows(q), i) ==> SoundRow(q, row)
  {
    forall row | row in Accumulate(RoundRows(q), i)
      ensures SoundRow(q, row)
    {
      AccumulatedFrom(RoundRows(q), i, row);
      var r :| 0 <= r <= i && row in RoundRows(q)(r);
      ValidDrawRowsSound(q, r, RoundSize(q, r));
    }
  }

  /** A successful generation has exactly `sampleSize` rows, each `len(objs) + 1`
      wide, whose output is the equation at that row's inputs and passes the
      validity predicate. */
  lemma GenerateSound(q: Request, patience: nat)
    ensures Generate(q, patience).Ok? ==>
      |Generate(q, patience).value| == q.sampleSize &&
      forall row :: row in Generate(q, patience).value ==> SoundRow(q, row)
  {
    if |q.objs| > 0 {
      if FirstValidCount(q) == q.sampleSize {
        var t := DrawTable(q, 0, q.sampleSize);
        FilterAllTrue(t, DrawFlags(q, 0, q.sampleSize));
        ValidDrawRowsSound(q, 0, q.sampleSize);
      } else {
        RetryAtFirstSufficientRound(RoundRows(q), q.sampleSize, patience, 1);
        RetryFails(RoundRows(q), q.sampleSize, patience, 1);
        var k := FirstSufficientRound(RoundRows(q), q.sampleSize, patience, 1);
        if k <= patience {
          AccumulatedSound(q, k);
        }
      }
    }
  }

  /** If every output of the first draw is valid, that draw is returned as it is,
      in draw order. */
  lemma FullyValidFirstDrawReturned(q: Request, patience: nat)
    requires |q.objs| > 0
    requires forall k :: 0 <= k < q.sampleSize ==> q.checkIfValid(Outputs(q, 0, q.sampleSize)[k])
    ensures Generate(q, patience) == Ok(DrawTable(q, 0, q.sampleSize))
    ensures forall k :: 0 <= k < q.sampleSize ==>
      DrawTable(q, 0, q.sampleSize)[k][..|q.objs|] == Point(Draw(q, 0, q.sampleSize), k)
  {
  }

  /** Valid rows of a newer round come before all earlier valid rows. */
  lemma NewerRoundsFirst(q: Request, i: nat, j: nat)
    requires j <= i
    ensures |Accumulate(RoundRows(q), j)| <= |Accumulate(RoundRows(q), i)|
    ensures Accumulate(RoundRows(q), i)[|Accumulate(RoundRows(q), i)| - |Accumulate(RoundRows(q), j)|..] == Accumulate(RoundRows(q), j)
    ensures 0 < i ==> Accumulate(RoundRows(q), i)[..|ValidDrawRows(q, i, RetrySize(q))|] == ValidDrawRows(q, i, RetrySize(q))
  {
    AccumulationOrder(RoundRows(q), i, j);
  }

  /** Generation fails exactly when no round, within `patience` retries, brings the
      valid rows up to `sampleSize`; it never returns a short table. With
      `patience = 0` any first draw that is not fully valid fails. */
  lemma GenerateFailsIffNoRoundSuffices(q: Request, patience: nat)
    ensures |q.objs| == 0 ==> Generate(q, patience) == Err(NoSamplingObjectives)
    ensures |q.objs| > 0 ==>
      (Generate(q, patience).Err? <==>
         FirstValidCount(q) < q.sampleSize &&
         forall i :: 1 <= i <= patience ==> |Accumulate(RoundRows(q), i)| < q.sampleSize)
    ensures |q.objs| > 0 && Generate(q, patience).Err? ==>
      Generate(q, patience).error == SamplingExhausted(|Accumulate(RoundRows(q), patience)|)
    ensures |q.objs| > 0 && patience == 0 ==>
      (Generate(q, patience).Err? <==> FirstValidCount(q) < q.sampleSize)
  {
    if |q.objs| > 0 {
      if FirstValidCount(q) == q.sampleSize {
        assert Generate(q, patience).Ok?;
      } else {
        assert FirstValidCount(q) < q.sampleSize;
        assert Generate(q, patience) == Retry(RoundRows(q), q.sampleSize, patience, 1);
        RetryFails(RoundRows(q), q.sampleSize, patience, 1);
      }
    }
  }

  /** When the first draw falls short, the result is the first `sampleSize` rows of
      the accumulation at the first retry round that reaches the target, if one does
      within `patience` rounds. */
  lemma GenerateTruncatesFirstSufficientRound(q: Request, patience: nat)
    requires |q.objs| > 0 && FirstValidCount(q) < q.sampleSize
    ensures var k := FirstSufficientRound(RoundRows(q), q.sampleSize, patience, 1);
      1 <= k <= patience + 1 &&
      (forall l :: 1 <= l < k ==> |Accumulate(RoundRows(q), l)| < q.sampleSize) &&
      (k <= patience ==> |Accumulate(RoundRows(q), k)| >= q.sampleSize &&
                         Generate(q, patience) == Ok(Accumulate(RoundRows(q), k)[..q.sampleSize]))
  {
    RetryAtFirstSufficientRound(RoundRows(q), q.sampleSize, patience, 1);
  }

  /** The samplers agree on every value a generation may read. */
  ghost predicate SameScheduledDraws(q: Request, q': Request, patience: nat) {
    |q.objs| == |q'.objs| &&
    (forall j, k :: 0 <= j < |q.objs| && 0 <= k < q.sampleSize ==>
      q.objs[j].sample(0, q.sampleSize, k) == q'.objs[j].sample(0, q.sampleSize, k)) &&
    (forall j, round, k :: 0 <= j < |q.objs| && 1 <= round <= patience && 0 <= k < RetrySize(q) ==>
      q.objs[j].sample(round, RetrySize(q), k) == q'.objs[j].sample(round, RetrySize(q), k))
  }

  lemma SameDraw(q: Request, q': Request, round: nat, count: nat)
    requires |q.objs| == |q'.objs| && q.eqFunc == q'.eqFunc && q.checkIfValid == q'.checkIfValid
    requires forall j, k :: 0 <= j < |q.objs| && 0 <= k < count ==>
      q.objs[j].sample(round, count, k) == q'.objs[j].sample(round, count, k)
    ensures Draw(q, round, count) == Draw(q', round, count)
    ensures DrawTable(q, round, count) == DrawTable(q', round, count)
    ensures ValidDrawRows(q, round, count) == ValidDrawRows(q', round, count)
    ensures DrawFlags(q, round, count) == DrawFlags(q', round, count)
  {
    forall j | 0 <= j < |q.objs|
      ensures Draw(q, round, count)[j] == Draw(q', round, count)[j]
    {
    }
  }

  /** A generation reads only the first draw of `sampleSize` values per objective and
      at most `patience` retry draws, each of `5 * missed` values with the shortfall
      of the first draw: samplers that agree there give the same result. */
  lemma GenerateReadsOnlyScheduledDraws(q: Request, q': Request, patience: nat)
    requires q.eqFunc == q'.eqFunc && q.checkIfValid == q'.checkIfValid && q.sampleSize == q'.sampleSize
    requires SameScheduledDraws(q, q', patience)
    ensures Generate(q, patience) == Generate(q', patience)
  {
    SameDraw(q, q', 0, q.sampleSize);
    assert RetrySize(q) == RetrySize(q');
    forall r | 0 <= r <= patience
      ensures RoundRows(q)(r) == RoundRows(q')(r)
    {
      if r > 0 {
        SameDraw(q, q', r, RetrySize(q));
      }
    }
    SameRetry(RoundRows(q), RoundRows(q'), q.sampleSize, patience, 1);
  }
}
